=== FILE: README.md ===
# A Dafny model of the Google Maps tool server

`google_maps.py` exposes seven mapping tools to an assistant. This model covers six of them; the seventh, `get_elevation`, is left out (see "Left out"). The six are:

- `geocode_address`;
- `reverse_geocode`;
- `search_places`;
- `get_place_details`;
- `get_directions`;
- `calculate_distance_matrix`.

Each tool does the same four things:

1. It checks its input.
2. It builds the query parameters.
3. It sends them through one gateway, `make_google_request`. The gateway adds the credential and passes a reply on only when the service's `status` is `"OK"`.
4. It renders the reply as a plain-text report, or returns a fixed failure sentence.

This project models that decision and formatting layer as pure functions and proves what the reports contain.

Modules, one file each:

- `Wrappers` (`wrappers.dfy`): `Option` and `Min`.
- `Text` (`text.dfy`): Python's string operations as the tools use them.
  - `sep.join`, `s.split` and slicing `xs[:n]`.
  - `s.replace` as a left-to-right scan over non-overlapping occurrences.
  - `Unlines`, the layout of triple-quoted templates and of loops that append `"...\n"`.
  - `Lines`, which is `split("\n")`. Every report is read back through it.
- `Decimal` (`decimal.dfy`): `str(n)` for integers, plus a reader that inverts it.
- `Gateway` (`gateway.dfy`): `make_google_request`.
  - The network is a parameter `net: Request -> HttpOutcome<T>`.
  - An outcome is a transport failure, an HTTP error, or a decoded reply with its optional `status`.
  - Each tool returns a `Reply`: its text and the list of requests it sent. "The gateway is never invoked" reads `sent == []`.
- `Travel` (`travel.dfy`): the four travel modes, the membership test on the mode string, and `mode.title()` on them.
- `Geocode` (`geocode.dfy`): `geocode_address` and `reverse_geocode`.
- `Search` (`search.dfy`): `search_places`. The location and radius are sent only when given, at most five place blocks are shown, and missing fields get placeholders.
- `Details` (`details.dfy`): `get_place_details`.
  - Placeholders for missing contact fields.
  - Opening hours when `opening_hours` is a non-empty object.
  - At most three reviews, each shown as its first 200 characters followed by `...`.
- `Directions` (`directions.dfy`): `get_directions`.
  - A mode check, then a header with the summary or `"Direct route"`.
  - At most ten steps, numbered from 1.
  - Each instruction goes through four chained replacements, in order: `<b>` removed, `</b>` removed, `<div>` turned into a space, `</div>` removed.
- `DistanceMatrix` (`matrix.dfy`): `calculate_distance_matrix`.
  - A mode check, then origins and destinations each joined by `|`.
  - A grid with one block per origin address and one line per destination address; a cell whose status is not `"OK"` reads `Route not available`.

The upstream JSON becomes one datatype per endpoint. A field read with `.get(..., default)` is an `Option` and renders its default when absent. A list whose absence and emptiness behave the same (`results`, `types`, `routes`, `rows`) is a plain `seq`. Python truthiness is written out where the code tests it. An `opening_hours` or `result` object counts as present exactly when it has at least one key. The key count includes keys the report never reads, which the model counts in an `otherKeys` field.

Numbers the service returns (coordinates, ratings) and the coordinates the caller passes to `reverse_geocode` are carried as already formatted text. Rendering them is Python's float printing, which is not modelled.

Two behaviours of the code shape the model:

- **Fields read without a default.** Many fields are read by index or key with no fallback, so a reply without them raises `KeyError` or `IndexError`. These are:
  - a geocoding result's `formatted_address`, `geometry.location.lat`, `geometry.location.lng` and `place_id` (google_maps.py:52-57);
  - a reverse-geocoding result's `formatted_address` and `place_id` (google_maps.py:77-78);
  - a search hit's `name` and `place_id`, and a review's author, rating and text;
  - a route's `legs` and `legs[0]`, the leg's `distance.text`, `duration.text` and `steps`;
  - a step's `html_instructions`, `distance.text` and `duration.text` (google_maps.py:205-206);
  - `origin_addresses`, `destination_addresses`, `rows[i]["elements"][j]`, and a cell's `status`, and for an "OK" cell its `distance.text` and `duration.text` (google_maps.py:243-246).

  The model makes those fields mandatory. Where an index is involved it states the assumption as a precondition (`FirstRouteHasLeg`, `RowsCover`).
- **Review ellipsis.** The code appends `...` to every review's first 200 characters, whether or not anything was cut.

## Model

| member | source | states |
|---|---|---|
| Gateway.Outgoing | google_maps.py:19-21 | The request goes to the base URL, then `/`, then the endpoint. Its parameters are the caller's with `key` set to the credential, overriding any value the caller put there; every other caller parameter passes through unchanged. |
| Gateway.Interpret | google_maps.py:24-36 | A reply is handed on exactly when the call got through and the service's status is exactly "OK". A transport failure, an HTTP error, or any other status (including none) gives nothing. What is handed on is the decoded body itself. |
| Gateway.Call | google_maps.py:17-36 | One exchange: the request sent carries the caller's parameters plus the key. Data comes back exactly when that request was answered with status "OK", and the data is the service's body. |
| Travel.ParseMode | google_maps.py:177-178 | A mode string is accepted exactly when it is one of "driving", "walking", "bicycling", "transit", compared case-sensitively. An accepted mode's name is the string that was given. |
| Travel.ParseName | google_maps.py:177 | Every mode's name is accepted and read back as that same mode. |
| Travel.TitleCapitalisesName | google_maps.py:198 | The title form of a mode has the name's length. Its first letter is the name's first letter in upper case, and the rest is the name unchanged. |
| Decimal.NatToDecimal | google_maps.py:100 | `str(n)` of a natural number is a non-empty run of digits with no leading zero, and it is "0" exactly when n is 0. |
| Decimal.IntToDecimal | google_maps.py:100 | `str(i)` starts with a minus sign exactly when i is negative. After the sign comes a non-empty run of digits with no leading zero, and a negative number is never written "-0". |
| Decimal.IntDecimalRoundTrip | google_maps.py:100 | Reading back the numeral `str(i)` gives i, so the radius sent upstream is the caller's radius. |
| Text.Join | google_maps.py:227-228 | `sep.join(parts)` opens with the first part; with `SplitJoinRoundTrip` below, splitting the result at a one-character separator no part contains gives the parts back. |
| Text.ReplaceAllChars | google_maps.py:205 | `s.replace(pat, rep)`, modelled by `ReplaceAll` as a left-to-right scan, brings in no character other than those of the text and of the replacement. |
| Text.Take | google_maps.py:108 | `xs[:n]` keeps min(n, len) elements, the same ones and in the same order. |
| Text.ReplaceAllIsJoinOfSplit | google_maps.py:205 | Replacing every occurrence of a non-empty pattern equals splitting at the pattern and joining the pieces with the replacement. This ties the scan to Python's `rep.join(s.split(pat))`. |
| Text.ReplaceAllNotLonger | google_maps.py:205 | A replacement no longer than its pattern never lengthens the text. |
| Text.SplitJoinRoundTrip | google_maps.py:227-228 | Splitting a non-empty list joined by a one-character separator gives the list back, provided no element contains that character. |
| Text.LinesOfUnlines | google_maps.py:54-58 | Lines that each end in a newline read back, split at newlines, as exactly those lines plus the empty piece after the last newline. |
| Geocode.RenderGeocode | google_maps.py:48-58 | The failure sentence is returned exactly when there is no data or no result. Otherwise the report quotes the first result's address, latitude, longitude and place id verbatim. |
| Geocode.GeocodeReportLines | google_maps.py:54-58 | The report reads back as an empty line, the address line, the coordinates line, the place-id line and a final empty piece. |
| Geocode.GeocodeAddress | google_maps.py:45-49 | Exactly one request goes to `geocode/json`, with the address and the key. The text is the failure sentence exactly when the reply is not "OK" or lists no result. |
| Geocode.RenderReverse | google_maps.py:71-80 | The failure sentence is returned exactly when there is no result. Otherwise the report quotes the first result's address and place id, and the coordinates the caller passed. |
| Geocode.ReverseReportLines | google_maps.py:76-80 | The reverse report reads back as an empty line, the address line, the place-id line, the line with the caller's coordinates and a final empty piece. |
| Geocode.RenderReverseLines | google_maps.py:71-80 | On a usable reply, the text returned reads back as exactly those lines for the first result and the caller's coordinates: no other line, and none with the service's own coordinates. |
| Geocode.ReverseGeocode | google_maps.py:68-72 | Exactly one request, whose `latlng` is the two coordinates joined by a comma. The failure sentence is returned exactly when there is no usable reply. |
| Geocode.HeadquartersExample | google_maps.py:43 | For the documented example address, a reply with one result yields a report that quotes that result's address, coordinates and place id. |
| Search.SearchParams | google_maps.py:95-100 | The query is always sent. `location` is sent exactly when it is given and non-empty, and then verbatim. `radius` is sent exactly when it is given and non-zero, and then as a numeral that reads back as the radius. No other parameter is sent. |
| Search.RenderSearch | google_maps.py:104-105 | The failure sentence is returned exactly when there is no data or the result list is empty. |
| Search.SearchPlaces | google_maps.py:102-105 | Exactly one request goes out, with the search parameters and the key. The failure sentence is returned exactly when the reply is not "OK" or lists no place. |
| Search.PlaceBlockPlaceholders | google_maps.py:109-115 | A place's block reads back as seven lines. Its name line names the place, its address and rating lines show the value or "Address not available" / "No rating" when missing, and its last field line shows the place id. |
| Search.NameLineCount | google_maps.py:116-118 | Blocks joined by the `---` separator hold exactly one "Name: " line per block: the separator adds none. |
| Search.RenderPlaces | google_maps.py:107-118 | The report on the place list is empty exactly when the list is empty, and otherwise opens with the first block's empty line. |
| Search.JoinedBlocksLines | google_maps.py:116-118 | Blocks joined by the separator read back as each block's six lines and its final empty piece, with one `---` line between consecutive blocks. |
| Search.JoinedLinesAt | google_maps.py:116-118 | In that reading, block i occupies lines 8i to 8i + 6, and line 8i + 7 is `---` for every block but the last. |
| Search.RenderPlacesNamesAtMostFive | google_maps.py:107-118 | The report on n places has exactly min(n, 5) "Name: " lines, so the places beyond the fifth add none; `RenderPlacesLayout` states which places they name. |
| Search.RenderPlacesLayout | google_maps.py:107-118 | The report on n > 0 places has 8·min(n, 5) − 1 lines. Lines 8i to 8i + 6 are the block of place i for each of the first min(n, 5) places, in input order; line 8i + 1 is "Name: " and that place's name; line 8i + 7 is `---` between blocks. |
| Details.ReviewExcerpt | google_maps.py:159 | A review's excerpt is its first min(len, 200) characters followed by "...", which is appended whether or not anything was cut. Its length is min(len, 200) + 3. |
| Details.RenderDetails | google_maps.py:134-135 | The failure sentence is returned exactly when there is no data or the `result` object is absent or empty. |
| Details.GetPlaceDetails | google_maps.py:127-135 | Exactly one request goes out, with the place id and the fixed field list. The failure sentence is returned exactly when the reply is not "OK" or carries no non-empty result. |
| Details.DetailsReportLines | google_maps.py:139-162 | The report reads back, in order, as the six header lines, an empty line, the weekday lines under their title, the open-now line, and the reviews section. The hours lines appear only when the hours object is non-empty; the reviews section only when there are reviews. |
| Details.DetailsPlaceholders | google_maps.py:139-145 | Each contact field shows its value or, when missing, "Unknown", "Address not available", "Phone not available", "Website not available" or "No rating". |
| Details.OpeningTextLines | google_maps.py:150-151 | Weekday text, when non-empty, reads back as an empty line, the "Opening Hours:" title and the weekday lines in order. Otherwise it adds nothing. |
| Details.OpenNowLineIff | google_maps.py:148-152 | "Currently Open: Yes" is a line of the report exactly when `opening_hours` is a non-empty object whose `open_now` is true. |
| Details.ReviewsTextLines | google_maps.py:157-160 | The reviews loop reads back as an empty line, then each review's line followed by an empty line. |
| Details.ReviewCount | google_maps.py:155-160 | The reviews section has a title and one line per review for the first min(n, 3) reviews, in order: review i's line sits at position 2 + 2i. |
| Directions.StripTagsWithoutTags | google_maps.py:205 | An instruction containing none of `<b>`, `</b>`, `<div>`, `</div>` comes back unchanged. |
| Directions.StripTagsWithoutAngle | google_maps.py:205 | An instruction with no `<` at all comes back unchanged. |
| Directions.StripTags | google_maps.py:205 | Cleaning an instruction never makes it longer, and every character of the result is a character of the instruction or the space that replaces `<div>`. |
| Directions.StripTagsKeepsSingleLine | google_maps.py:205 | Cleaning never introduces a line break. |
| Directions.StripTagsCanLeaveTag | google_maps.py:205 | The clean-up does not guarantee tag-free output: `<<b>b>` becomes `<b>`, which still contains a bold tag. |
| Directions.StripTagsDivBlock | google_maps.py:205 | A `div` element around tag-free text becomes that text with a leading space. |
| Directions.StripTagsBoldBlock | google_maps.py:205 | A bold element around tag-free text becomes that text. |
| Directions.DirectionsReportLines | google_maps.py:191-206 | The report reads back as the seven header lines then one line per shown step. Line 1 holds the summary or "Direct route"; lines 2 and 3 the leg's distance and duration; line 4 the title form of the mode; line 6 the "Turn-by-Turn Directions:" title. Line 7 + i is step i's line, numbered i + 1, for the first min(n, 10) steps. |
| Directions.RenderDirections | google_maps.py:188-206 | The failure sentence is returned exactly when there is no data or no route. Otherwise the report opens with an empty line. |
| Directions.GetDirections | google_maps.py:177-189 | An unknown mode returns exactly the invalid-mode sentence and sends nothing. A known mode sends exactly one request, with the mode as given. The failure sentence is returned exactly when the reply is not "OK" or lists no route. |
| Directions.GetDirectionsSteps | google_maps.py:203-206 | End to end, the text returned lists the first min(n, 10) steps of the first leg, each numbered from 1 and carrying its cleaned instruction, distance and duration. |
| DistanceMatrix.MatrixParamsRoundTrip | google_maps.py:226-230 | The origins and destinations parameters split back into the caller's lists, provided each list is non-empty and no place contains the bar character. |
| DistanceMatrix.BarInPlaceSplits | google_maps.py:227 | A place containing the bar character is not recovered: "a", bar, "b" given as one origin reads back as the two origins "a" and "b". |
| DistanceMatrix.ElementText | google_maps.py:245-248 | A cell shows "Route not available" exactly when its status is not "OK". An "OK" cell's text contains both its distance and its duration. |
| DistanceMatrix.MatrixReportLines | google_maps.py:237-252 | The grid reads back as the title, an empty line, then for each origin its "From: " line, one line per destination, and an empty line. |
| DistanceMatrix.MatrixLineCounts | google_maps.py:239-250 | The grid has exactly one "From: " line per origin address and exactly one "  To " line per pair of origin and destination. |
| DistanceMatrix.MatrixOriginLine | google_maps.py:239-240 | Origin i's name line sits at line 2 + i·h, where h is the number of destinations plus two; the grid has 2 + (origins)·h lines. |
| DistanceMatrix.NoDestinationsRendered | google_maps.py:239-250 | A reply with two origin addresses, no destination address and one empty row is rendered, not refused: the title, an empty line, then each origin's name line followed by an empty line. No row is read for the second origin. |
| DistanceMatrix.MatrixCellLine | google_maps.py:242-248 | The line after origin i's name line, at offset j + 1, names destination j and shows the cell `rows[i].elements[j]`. |
| DistanceMatrix.RenderMatrix | google_maps.py:234-237 | The failure sentence is returned exactly when there is no data or no row. Otherwise the report opens with the title naming the mode. |
| DistanceMatrix.CalculateDistanceMatrix | google_maps.py:223-235 | An unknown mode returns exactly the invalid-mode sentence and sends nothing. A known mode sends exactly one request, whose origins and destinations are the lists joined by the bar character. The failure sentence is returned exactly when the reply is not "OK" or has no row. |
| DistanceMatrix.CalculateDistanceMatrixGrid | google_maps.py:237-252 | End to end, the text returned has one "From: " line per origin address and one "  To " line per pair of origin and destination. |

## Left out

- The HTTP client, `async`/`await`, the 30-second timeout and exception capture: any failure of the call is one `TransportFailure` or `HttpError` outcome supplied by the `net` parameter.
- The diagnostic `print` lines of the gateway: a logging side effect with no effect on results.
- The tool framework: server construction, tool registration and the stdio transport.
- Reading the credential from the environment and the start-up error when it is missing: the credential is a parameter `key`.
- `get_elevation`, and the printing of floating-point coordinates and ratings: these rely on float arithmetic and formatting. Coordinates and ratings are carried as already formatted text.
- The default value `"driving"` of the `mode` argument: a caller-side default with no logic behind it. The model always takes the mode explicitly.
- `mode.title()` beyond the four valid modes: it is only ever applied after the mode check, so a lookup table stands in for it.
- A field that is present but `null`: the model distinguishes only present and absent.
- A non-list `weekday_text`, `types` or `reviews`: these are not modelled.
- Directions.GetDirections: requires the first route of a successful reply to have a leg, because the source indexes `legs[0]` unchecked and would raise `IndexError` instead.
- Directions.RenderDirections: the same precondition on `legs[0]`, for the same reason.
- DistanceMatrix.CalculateDistanceMatrix: when a successful reply lists at least one destination address, requires its rows to cover every origin and destination address. The source indexes `rows[i]["elements"][j]` unchecked inside the loop over destinations and would raise on a short reply. A reply without destination addresses is accepted whatever its rows, as `NoDestinationsRendered` shows.
- DistanceMatrix.RenderMatrix: the same covering precondition, for the same reason.
- Details.OpenNowLineIff: assumes every printed field is a single line and no weekday line is itself the text "Currently Open: Yes", since either would let the phrase appear without the flag.
- Directions.StripTagsCanLeaveTag: tag-freeness is not claimed for the cleaned instruction, because the four replacements can bring a tag together, as this lemma shows.
- Directions.DirectionsReportLines: states line positions only when the summary, the leg's distance and duration, and the fields of the first ten steps are single lines, since a newline inside a printed field would shift later lines. Steps beyond the tenth are not printed and may hold anything.
- DistanceMatrix.MatrixReportLines: likewise assumes single-line addresses and cell texts.
- Geocode.GeocodeReportLines: states the read-back only for single-line fields, since a newline inside a field would split its line.
- Geocode.ReverseReportLines: the same single-line assumption, for the same reason.
- Geocode.RenderReverseLines: the same single-line assumption, for the same reason.
- Search.PlaceBlockPlaceholders: the same single-line assumption, for the same reason.
- Search.NameLineCount: the same single-line assumption, for the same reason.
- Search.JoinedBlocksLines: the same single-line assumption, for the same reason.
- Details.DetailsReportLines: the same single-line assumption on the printed fields, for the same reason. For reviews it covers the author, the rating and the first 200 characters of the text of the first three reviews only.
- Details.DetailsPlaceholders: the same single-line assumption, for the same reason.
- Details.OpeningTextLines: the same single-line assumption for the weekday lines, for the same reason.
- Details.ReviewsTextLines: the same single-line assumption for the review lines, for the same reason.
- Directions.GetDirectionsSteps: the same single-line assumption for the route's fields, for the same reason.
- DistanceMatrix.CalculateDistanceMatrixGrid: the same single-line assumption for addresses and cell texts, for the same reason.
- Search.RenderPlacesNamesAtMostFive: counts "Name: " lines assuming single-line fields, for the same reason.
- Search.RenderPlacesLayout: the same single-line assumption, for the same reason.
- DistanceMatrix.MatrixParamsRoundTrip: holds only when both lists are non-empty and no place contains `|`. `"|".join([])` and `"".split("|")` do not round-trip, and `BarInPlaceSplits` shows the second case.

=== FILE: decimal.dfy ===
/**
 * Python's `str(n)` for integers: the canonical decimal numeral, used for
 * the search radius sent upstream and for the step numbers of a route.
 */
module Decimal {
  import opened Wrappers

  predicate IsDigit(c: char) {
    '0' <= c <= '9'
  }

  predicate AllDigits(s: string) {
    forall i :: 0 <= i < |s| ==> IsDigit(s[i])
  }

  /** A numeral never contains a line break. */
  lemma DigitsHaveNoNewline(s: string)
    requires AllDigits(s)
    ensures '\n' !in s
  {
    forall i | 0 <= i < |s|
      ensures s[i] != '\n'
    {
      assert IsDigit(s[i]);
    }
  }

  function DigitChar(d: nat): (c: char)
    requires d < 10
    ensures IsDigit(c)
  {
    ('0' as int + d) as char
  }

  function DigitValue(c: char): (d: nat)
    requires IsDigit(c)
    ensures d < 10
  {
    c as int - '0' as int
  }

  /** `str(n)` for `n >= 0`: digits only, and no leading zero unless `n` is 0. */
  function NatToDecimal(n: nat): (r: string)
    ensures |r| > 0 && AllDigits(r)
    ensures n == 0 <==> r == "0"
    ensures n > 0 ==> r[0] != '0'
    decreases n
  {
    if n < 10 then [DigitChar(n)]
    else NatToDecimal(n / 10) + [DigitChar(n % 10)]
  }

  /** A numeral as Python prints one: digits only, and no leading zero
      unless the numeral is "0" itself. */
  predicate Canonical(m: string) {
    |m| > 0 && AllDigits(m) && (m[0] == '0' ==> m == "0")
  }

  /** `str(i)`: a minus sign before the magnitude of a negative number. */
  function IntToDecimal(i: int): (r: string)
    ensures |r| > 0
    ensures i < 0 <==> r[0] == '-'
    ensures Canonical(if i < 0 then r[1..] else r)
    ensures i < 0 ==> r[1..] != "0"
  {
    if i < 0 then "-" + NatToDecimal(-i) else NatToDecimal(i)
  }

  /** The value of a digit string, read most significant digit first. */
  function DecimalValue(s: string): nat
    requires AllDigits(s)
    decreases |s|
  {
    if |s| == 0 then 0
    else DecimalValue(s[..|s| - 1]) * 10 + DigitValue(s[|s| - 1])
  }

  /** Reads an optionally signed digit string back as an integer. */
  function ParseInt(s: string): Option<int>
  {
    if |s| > 1 && s[0] == '-' && AllDigits(s[1..]) then Some(0 - DecimalValue(s[1..]) as int)
    else if |s| > 0 && AllDigits(s) then Some(DecimalValue(s))
    else None
  }

  lemma {:induction false} NatDecimalRoundTrip(n: nat)
    ensures DecimalValue(NatToDecimal(n)) == n
    decreases n
  {
    if n >= 10 {
      var s := NatToDecimal(n);
      NatDecimalRoundTrip(n / 10);
      assert s[..|s| - 1] == NatToDecimal(n / 10);
    }
  }

  /** Reading back the numeral `str(i)` gives `i`: the numeral loses nothing. */
  lemma IntDecimalRoundTrip(i: int)
    ensures ParseInt(IntToDecimal(i)) == Some(i)
  {
    if i < 0 {
      var s := IntToDecimal(i);
      assert s[1..] == NatToDecimal(-i);
      NatDecimalRoundTrip(-i);
    } else {
      NatDecimalRoundTrip(i);
    }
  }
}

=== FILE: details.dfy ===
/**
 * `get_place_details`: the details of one place, with placeholders for
 * missing contact fields, an optional opening-hours section and up to three
 * reviews cut to 200 characters.
 */
module Details {
  import opened Wrappers
  import opened Text
  import opened Gateway

  /** One review; its three fields are read unconditionally. */
  datatype Review = Review(authorName: string, rating: string, text: string)

  /** The `opening_hours` object. `otherKeys` counts keys the report does not
      read, which still make the object non-empty. */
  datatype OpeningHours = OpeningHours(weekdayText: Option<seq<string>>, openNow: Option<bool>, otherKeys: nat)

  /** The `result` object. `otherKeys` counts keys the report does not read
      (`geometry`, among others). */
  datatype PlaceDetails = PlaceDetails(
    name: Option<string>,
    formattedAddress: Option<string>,
    phone: Option<string>,
    website: Option<string>,
    rating: Option<string>,
    openingHours: Option<OpeningHours>,
    reviews: Option<seq<Review>>,
    otherKeys: nat)

  datatype DetailsBody = DetailsBody(result: Option<PlaceDetails>)

  const DetailsEndpoint: string := "place/details/json"
  const DetailsFields: string := "name,formatted_address,formatted_phone_number,website,rating,reviews,opening_hours,geometry"
  const DetailsFailure: string := "Unable to fetch place details."
  const MaxReviews: nat := 3
  const ExcerptLength: nat := 200
  const OpenYes: string := "Currently Open: Yes"
  const OpenNo: string := "Currently Open: No"

  /** Python truthiness of the `result` object: a non-empty dict. */
  predicate DetailsGiven(d: Option<PlaceDetails>) {
    && d.Some?
    && var p := d.value;
       || p.name.Some? || p.formattedAddress.Some? || p.phone.Some? || p.website.Some?
       || p.rating.Some? || p.openingHours.Some? || p.reviews.Some? || p.otherKeys > 0
  }

  /** Python truthiness of `opening_hours`: a non-empty dict. */
  predicate HoursGiven(h: Option<OpeningHours>) {
    h.Some? && (h.value.weekdayText.Some? || h.value.openNow.Some? || h.value.otherKeys > 0)
  }

  /** Python truthiness of `weekday_text`: a non-empty list. */
  predicate WeekdaysGiven(h: OpeningHours) {
    h.weekdayText.Some? && |h.weekdayText.value| > 0
  }

  /** Python truthiness of `reviews`: a non-empty list. */
  predicate ReviewsGiven(rs: Option<seq<Review>>) {
    rs.Some? && |rs.value| > 0
  }

  function HeaderLines(p: PlaceDetails): seq<string> {
    [ "",
      "Name: " + p.name.GetOr("Unknown"),
      "Address: " + p.formattedAddress.GetOr("Address not available"),
      "Phone: " + p.phone.GetOr("Phone not available"),
      "Website: " + p.website.GetOr("Website not available"),
      "Rating: " + p.rating.GetOr("No rating") + " stars" ]
  }

  /** The opening-hours section: the weekday lines when there are any, then
      whether the place is open now. */
  function HoursSection(h: Option<OpeningHours>): string {
    if !HoursGiven(h) then "" else OpeningText(h.value) + "\n" + OpenStatus(h.value)
  }

  /** The weekday lines under their title, when `weekday_text` is non-empty. */
  function OpeningText(h: OpeningHours): string {
    if WeekdaysGiven(h) then "\n" + "Opening Hours:" + "\n" + Join("\n", h.weekdayText.value) else ""
  }

  /** Python's `'Yes' if hours.get('open_now') else 'No'`. */
  function OpenStatus(h: OpeningHours): string {
    if h.openNow == Some(true) then OpenYes else OpenNo
  }

  /** A review's text as shown: its first min(len, 200) characters followed
      by "...", whether or not anything was cut. */
  function ReviewExcerpt(text: string): (r: string)
    ensures |r| == Min(|text|, ExcerptLength) + 3
    ensures r[..|r| - 3] == text[..Min(|text|, ExcerptLength)]
    ensures r[|r| - 3..] == "..."
  {
    Take(text, ExcerptLength) + "..."
  }

  function ReviewLine(rv: Review): string {
    "- " + rv.authorName + " (" + rv.rating + " stars): " + ReviewExcerpt(rv.text)
  }

  /** The loop over the shown reviews, each entry an empty line and the
      review's line. */
  function ReviewsText(rs: seq<Review>): string {
    if |rs| == 0 then "" else "\n" + ReviewLine(rs[0]) + "\n" + ReviewsText(rs[1..])
  }

  function ReviewsSection(rs: Option<seq<Review>>): string {
    if !ReviewsGiven(rs) then "" else "\n" + "\n" + "Recent Reviews:" + ReviewsText(Take(rs.value, MaxReviews))
  }

  /** The report on a non-empty `result` object. */
  function DetailsReport(p: PlaceDetails): string {
    Unlines(HeaderLines(p)) + HoursSection(p.openingHours) + ReviewsSection(p.reviews)
  }

  // ---------------------------------------------------------------------
  // The report's lines, stated independently of how it is concatenated
  // ---------------------------------------------------------------------

  /** The lines of the reviews shown: each review's line and an empty line. */
  function ReviewBlockLines(rs: seq<Review>): (ls: seq<string>)
    ensures |ls| == 2 * |rs|
  {
    if |rs| == 0 then [] else [ReviewLine(rs[0]), ""] + ReviewBlockLines(rs[1..])
  }

  /** Review `i` has its line at index `2 * i`, followed by an empty line. */
  lemma {:induction false} ReviewBlockLinesAt(rs: seq<Review>, i: nat)
    requires i < |rs|
    ensures ReviewBlockLines(rs)[2 * i] == ReviewLine(rs[i])
    ensures ReviewBlockLines(rs)[2 * i + 1] == ""
    decreases i
  {
    if i > 0 {
      ReviewBlockLinesAt(rs[1..], i - 1);
    }
  }

  function WeekdayLines(h: OpeningHours): seq<string> {
    if WeekdaysGiven(h) then ["Opening Hours:"] + h.weekdayText.value else []
  }

  function HoursLines(h: Option<OpeningHours>): seq<string> {
    if !HoursGiven(h) then []
    else WeekdayLines(h.value) + [if h.value.openNow == Some(true) then OpenYes else OpenNo]
  }

  function ReviewsLines(rs: Option<seq<Review>>): seq<string> {
    if !ReviewsGiven(rs) then [] else ["", "Recent Reviews:"] + ReviewBlockLines(Take(rs.value, MaxReviews))
  }

  /** The lines a details report reads back as. */
  function DetailsLines(p: PlaceDetails): seq<string> {
    HeaderLines(p) + [""] + HoursLines(p.openingHours) + ReviewsLines(p.reviews)
  }

  /** The printed part of a review sits on one line: its author, its rating
      and the first 200 characters of its text. */
  predicate ReviewSingleLine(rv: Review) {
    SingleLine(rv.authorName) && SingleLine(rv.rating) && SingleLine(Take(rv.text, ExcerptLength))
  }

  predicate HoursSingleLine(h: Option<OpeningHours>) {
    h.Some? && h.value.weekdayText.Some? ==> AllSingleLine(h.value.weekdayText.value)
  }

  /** Only the first three reviews are printed. */
  predicate ReviewsSingleLine(rs: Option<seq<Review>>) {
    rs.Some? ==> forall i :: 0 <= i < Min(|rs.value|, MaxReviews) ==> ReviewSingleLine(rs.value[i])
  }

  /** Every field the report prints sits on one line. */
  predicate DetailsSingleLine(p: PlaceDetails) {
    && AllSingleLine(HeaderLines(p))
    && HoursSingleLine(p.openingHours)
    && ReviewsSingleLine(p.reviews)
  }

  lemma ReviewLineSingle(rv: Review)
    requires ReviewSingleLine(rv)
    ensures SingleLine(ReviewLine(rv))
  {
  }

  /** The reviews loop reads back as an empty line then each review's line
      followed by an empty line. */
  lemma {:induction false} ReviewsTextLines(rs: seq<Review>)
    requires forall i :: 0 <= i < |rs| ==> ReviewSingleLine(rs[i])
    ensures Lines(ReviewsText(rs)) == [""] + ReviewBlockLines(rs)
    decreases |rs|
  {
    if |rs| == 0 {
      LinesOfEmpty();
    } else {
      var line := ReviewLine(rs[0]);
      var rest := ReviewsText(rs[1..]);
      ReviewLineSingle(rs[0]);
      ReviewsTextLines(rs[1..]);
      LinesOfBlankThenLine(line, rest);
      assert ReviewBlockLines(rs) == [line, ""] + ReviewBlockLines(rs[1..]);
    }
  }

  /** Past its opening newline, the reviews loop reads back as each
      review's line followed by an empty line. */
  lemma ReviewsBodyLines(rs: seq<Review>)
    requires |rs| > 0
    requires forall i :: 0 <= i < |rs| ==> ReviewSingleLine(rs[i])
    ensures Lines(ReviewLine(rs[0]) + "\n" + ReviewsText(rs[1..])) == ReviewBlockLines(rs)
  {
    var line := ReviewLine(rs[0]);
    var tail := ReviewBlockLines(rs[1..]);
    ReviewLineSingle(rs[0]);
    ReviewsTextLines(rs[1..]);
    LineThenLines(line, ReviewsText(rs[1..]), tail);
    assert ReviewBlockLines(rs) == [line, ""] + tail;
  }

  /** Text followed by the reviews section reads back as the text's lines
      and then the section's. */
  lemma ReviewsSectionAfter(before: string, rs: Option<seq<Review>>)
    requires ReviewsGiven(rs)
    requires ReviewsSingleLine(rs)
    ensures Lines(before + ReviewsSection(rs)) == Lines(before) + ReviewsLines(rs)
  {
    var shown := Take(rs.value, MaxReviews);
    assert forall i :: 0 <= i < |shown| ==> ReviewSingleLine(shown[i]);
    var body := ReviewLine(shown[0]) + "\n" + ReviewsText(shown[1..]);
    assert ReviewsSection(rs) == "\n" + "\n" + "Recent Reviews:" + ("\n" + body);
    LinesAfterBlankThenLine(before, "Recent Reviews:", body);
    ReviewsBodyLines(shown);
  }

  /** With single-line fields, a details report reads back as `DetailsLines`. */
  lemma DetailsReportLines(p: PlaceDetails)
    requires DetailsSingleLine(p)
    ensures Lines(DetailsReport(p)) == DetailsLines(p)
  {
    var header := HeaderLines(p);
    var hours := HoursSection(p.openingHours);
    var reviews := ReviewsSection(p.reviews);
    assert DetailsReport(p) == Unlines(header) + hours + reviews;
    LinesAfterUnlinesThen(header, hours, reviews);
    HoursAndReviewsLines(p.openingHours, p.reviews);
    var hl := HoursLines(p.openingHours);
    var rl := ReviewsLines(p.reviews);
    assert DetailsLines(p) == header + [""] + hl + rl;
    Reassociate(header, [""], hl, rl);
  }

  lemma OpeningTextLines(h: OpeningHours)
    requires HoursSingleLine(Some(h))
    ensures Lines(OpeningText(h)) == [""] + WeekdayLines(h)
  {
    if WeekdaysGiven(h) {
      var wt := h.weekdayText.value;
      assert OpeningText(h) == "\n" + "Opening Hours:" + "\n" + Join("\n", wt);
      LinesOfBlankThenLine("Opening Hours:", Join("\n", wt));
      LinesOfJoin(wt);
      assert WeekdayLines(h) == ["Opening Hours:"] + wt;
      assert ["", "Opening Hours:"] + wt == [""] + (["Opening Hours:"] + wt);
    } else {
      LinesOfEmpty();
    }
  }

  /** The open-now line followed by the reviews section, if any. */
  lemma StatusThenReviews(status: string, rs: Option<seq<Review>>)
    requires SingleLine(status) && ReviewsSingleLine(rs)
    ensures Lines(status + ReviewsSection(rs)) == [status] + ReviewsLines(rs)
  {
    SingleLineIsOneLine(status);
    if ReviewsGiven(rs) {
      ReviewsSectionAfter(status, rs);
    } else {
      assert status + ReviewsSection(rs) == status;
    }
  }

  /** The part after the header: an empty line, the hours lines, the review
      lines. */
  lemma HoursAndReviewsLines(h: Option<OpeningHours>, rs: Option<seq<Review>>)
    requires HoursSingleLine(h) && ReviewsSingleLine(rs)
    ensures Lines(HoursSection(h) + ReviewsSection(rs)) == [""] + HoursLines(h) + ReviewsLines(rs)
  {
    if !HoursGiven(h) {
      NoHoursThenReviews(h, rs);
    } else {
      HoursThenReviews(h.value, rs);
    }
  }

  lemma NoHoursThenReviews(h: Option<OpeningHours>, rs: Option<seq<Review>>)
    requires !HoursGiven(h) && ReviewsSingleLine(rs)
    ensures Lines(HoursSection(h) + ReviewsSection(rs)) == [""] + ReviewsLines(rs)
  {
    LinesOfEmpty();
    assert HoursSection(h) + ReviewsSection(rs) == "" + ReviewsSection(rs);
    if ReviewsGiven(rs) {
      ReviewsSectionAfter("", rs);
    }
  }

  lemma HoursThenReviews(h: OpeningHours, rs: Option<seq<Review>>)
    requires HoursGiven(Some(h)) && HoursSingleLine(Some(h)) && ReviewsSingleLine(rs)
    ensures Lines(HoursSection(Some(h)) + ReviewsSection(rs)) == [""] + HoursLines(Some(h)) + ReviewsLines(rs)
  {
    var opening := OpeningText(h);
    var status := OpenStatus(h);
    var reviews := ReviewsSection(rs);
    var weekdays := WeekdayLines(h);
    var shown := ReviewsLines(rs);
    OpenStatusSingle(h);
    assert HoursSection(Some(h)) + reviews == opening + "\n" + status + reviews;
    LinesAroundNewlineThen(opening, status, reviews);
    OpeningTextLines(h);
    StatusThenReviews(status, rs);
    assert HoursLines(Some(h)) == weekdays + [status];
    Regroup([""], weekdays, [status], shown);
  }

  lemma OpenStatusSingle(h: OpeningHours)
    ensures SingleLine(OpenStatus(h))
  {
    assert OpenStatus(h) == OpenYes || OpenStatus(h) == OpenNo;
  }

  /** Read back, the header shows each contact field or, when it is
      missing, its placeholder. */
  lemma DetailsPlaceholders(p: PlaceDetails)
    requires DetailsSingleLine(p)
    ensures var ls := Lines(DetailsReport(p));
      && |ls| > 6
      && (p.name.Some? ==> ls[1] == "Name: " + p.name.value)
      && (p.name.None? ==> ls[1] == "Name: " + "Unknown")
      && (p.formattedAddress.Some? ==> ls[2] == "Address: " + p.formattedAddress.value)
      && (p.formattedAddress.None? ==> ls[2] == "Address: " + "Address not available")
      && (p.phone.Some? ==> ls[3] == "Phone: " + p.phone.value)
      && (p.phone.None? ==> ls[3] == "Phone: " + "Phone not available")
      && (p.website.Some? ==> ls[4] == "Website: " + p.website.value)
      && (p.website.None? ==> ls[4] == "Website: " + "Website not available")
      && (p.rating.Some? ==> ls[5] == "Rating: " + p.rating.value + " stars")
      && (p.rating.None? ==> ls[5] == "Rating: " + "No rating" + " stars")
  {
    DetailsReportLines(p);
    var header := HeaderLines(p);
    Reassociate(header, [""], HoursLines(p.openingHours), ReviewsLines(p.reviews));
    assert DetailsLines(p)[..6] == header;
  }

  /** "Currently Open: Yes" is a line of the report exactly when the place
      has a non-empty `opening_hours` object whose `open_now` is true —
      provided no weekday line spells that phrase itself. */
  lemma OpenNowLineIff(p: PlaceDetails)
    requires DetailsSingleLine(p)
    requires p.openingHours.Some? && p.openingHours.value.weekdayText.Some? ==>
               OpenYes !in p.openingHours.value.weekdayText.value
    ensures OpenYes in Lines(DetailsReport(p)) <==>
              HoursGiven(p.openingHours) && p.openingHours.value.openNow == Some(true)
  {
    DetailsReportLines(p);
    var hl := HeaderLines(p);
    forall k | 0 <= k < |hl| ensures hl[k] != OpenYes {
      assert hl[k] == "" || hl[k][0] in "NAPWR";
    }
    var rl := ReviewsLines(p.reviews);
    forall k | 0 <= k < |rl| ensures rl[k] != OpenYes {
      ReviewsLinesShape(p.reviews, k);
    }
    assert OpenNo != OpenYes by { assert OpenNo[16] == 'N'; }
    var ls := DetailsLines(p);
    assert ls == hl + [""] + HoursLines(p.openingHours) + rl;
    if OpenYes in ls {
      var k :| 0 <= k < |ls| && ls[k] == OpenYes;
      assert !(k < |hl|);
      assert k != |hl|;
      assert k < |hl| + 1 + |HoursLines(p.openingHours)|;
    }
  }

  /** No review-section line is the open-now line: each is empty, the
      section title, or a review's line. */
  lemma ReviewsLinesShape(rs: Option<seq<Review>>, k: nat)
    requires k < |ReviewsLines(rs)|
    ensures ReviewsLines(rs)[k] != OpenYes
  {
    var rl := ReviewsLines(rs);
    var shown := Take(rs.value, MaxReviews);
    if k >= 2 {
      var x := k - 2;
      ReviewBlockLinesAt(shown, x / 2);
      assert x == 2 * (x / 2) || x == 2 * (x / 2) + 1;
      assert rl[k] == "" || rl[k][0] == '-';
    }
  }

  /** What `get_place_details` makes of the gateway's answer. */
  function RenderDetails(data: Option<DetailsBody>): (text: string)
    ensures text == DetailsFailure <==> data.None? || !DetailsGiven(data.value.result)
  {
    if data.None? || !DetailsGiven(data.value.result) then DetailsFailure
    else
      var p := data.value.result.value;
      UnlinesOpensWithNewline(HeaderLines(p));
      assert DetailsReport(p)[0] == '\n';
      DetailsReport(p)
  }

  /** `get_place_details(place_id)`: the fixed field list is always asked for. */
  function GetPlaceDetails(placeId: string, key: string, net: Request -> HttpOutcome<DetailsBody>): (r: Reply)
    ensures |r.sent| == 1
    ensures r.sent[0] == Outgoing(DetailsEndpoint, map["place_id" := placeId, "fields" := DetailsFields], key)
    ensures r.text == DetailsFailure <==> !Answered(net(r.sent[0])) || !DetailsGiven(net(r.sent[0]).body.result)
  {
    var x := Call(net, DetailsEndpoint, map["place_id" := placeId, "fields" := DetailsFields], key);
    Reply(RenderDetails(x.data), [x.sent])
  }

  /** At most the first three reviews are shown, one line each, in order. */
  lemma ReviewCount(rs: seq<Review>)
    requires |rs| > 0
    ensures |ReviewsLines(Some(rs))| == 2 + 2 * Min(|rs|, MaxReviews)
    ensures forall i :: 0 <= i < Min(|rs|, MaxReviews) ==>
              ReviewsLines(Some(rs))[2 + 2 * i] == ReviewLine(rs[i])
  {
    var shown := Take(rs, MaxReviews);
    forall i | 0 <= i < |shown|
      ensures ReviewsLines(Some(rs))[2 + 2 * i] == ReviewLine(rs[i])
    {
      ReviewBlockLinesAt(shown, i);
    }
  }
}

=== FILE: directions.dfy ===
/**
 * `get_directions`: a checked travel mode, one request to `directions/json`,
 * and a report on the first leg of the first route with at most ten numbered
 * steps whose instructions have four HTML tags replaced.
 */
module Directions {
  import opened Wrappers
  import opened Text
  import opened Decimal
  import opened Gateway
  import opened Travel

  datatype Step = Step(htmlInstructions: string, distance: string, duration: string)

  /** `distance` and `duration` are the `text` fields of the leg's nested
      objects. */
  datatype Leg = Leg(distance: string, duration: string, steps: seq<Step>)

  /** `summary` is read with a default; `legs` is read unconditionally. */
  datatype Route = Route(summary: Option<string>, legs: seq<Leg>)

  /** An absent `routes` list reads like an empty one. */
  datatype DirectionsBody = DirectionsBody(routes: seq<Route>)

  const DirectionsEndpoint: string := "directions/json"
  const DirectionsFailure: string := "Unable to find directions " + "for the specified route."
  const MaxSteps: nat := 10
  const DefaultSummary: string := "Direct route"

  // ---------------------------------------------------------------------
  // Instruction clean-up
  // ---------------------------------------------------------------------

  /** The four chained `str.replace` calls, in their order: bold tags are
      dropped, an opening `div` becomes a space and a closing one is dropped.
      Each replacement is at most as long as its pattern, so cleaning never
      lengthens an instruction, and the only character it can bring in is
      the space. Nothing else is touched, so other tags survive, and the
      result can still hold a tag that the removals themselves bring
      together. */
  function StripTags(s: string): (r: string)
    ensures |r| <= |s|
    ensures forall c :: c in r ==> c in s || c == ' '
  {
    var noBold := ReplaceAll(s, "<b>", "");
    var noBoldEnd := ReplaceAll(noBold, "</b>", "");
    var divSpaced := ReplaceAll(noBoldEnd, "<div>", " ");
    ReplaceAllNotLonger(s, "<b>", "");
    ReplaceAllNotLonger(noBold, "</b>", "");
    ReplaceAllNotLonger(noBoldEnd, "<div>", " ");
    ReplaceAllNotLonger(divSpaced, "</div>", "");
    ReplaceAllDropsOnly(s, "<b>");
    ReplaceAllDropsOnly(noBold, "</b>");
    ReplaceAllSpacesOnly(noBoldEnd, "<div>");
    ReplaceAllDropsOnly(divSpaced, "</div>");
    ReplaceAll(divSpaced, "</div>", "")
  }

  /** In particular, cleaning never introduces a line break. */
  lemma StripTagsKeepsSingleLine(s: string)
    requires SingleLine(s)
    ensures SingleLine(StripTags(s))
  {
  }

  /** A pattern that starts with a character absent from `s` does not occur
      in `s`. */
  lemma AbsentLeadNoMatch(pat: string, s: string)
    requires |pat| > 0 && pat[0] !in s
    ensures !IsInfix(pat, s)
  {
    forall i | 0 <= i <= |s|
      ensures !(pat <= s[i..])
    {
      if i < |s| {
        assert s[i..][0] == s[i];
      }
    }
  }

  /** Every tag starts with `<`: an instruction without one is left exactly
      as it is. */
  lemma StripTagsWithoutAngle(s: string)
    requires '<' !in s
    ensures StripTags(s) == s
  {
    AbsentLeadNoMatch("<b>", s);
    AbsentLeadNoMatch("</b>", s);
    AbsentLeadNoMatch("<div>", s);
    AbsentLeadNoMatch("</div>", s);
    StripTagsWithoutTags(s);
  }

  /** An instruction with none of the four tags in it is left as it is. */
  lemma StripTagsWithoutTags(s: string)
    requires !IsInfix("<b>", s) && !IsInfix("</b>", s) && !IsInfix("<div>", s) && !IsInfix("</div>", s)
    ensures StripTags(s) == s
  {
    ReplaceAllWithoutMatch(s, "<b>", "");
    ReplaceAllWithoutMatch(s, "</b>", "");
    ReplaceAllWithoutMatch(s, "<div>", " ");
    ReplaceAllWithoutMatch(s, "</div>", "");
  }

  /** `<b>` survives the last three replacements. */
  lemma BoldTagKeptByLaterPatterns()
    ensures ReplaceAll("<b>", "</b>", "") == "<b>"
    ensures ReplaceAll("<b>", "<div>", " ") == "<b>"
    ensures ReplaceAll("<b>", "</div>", "") == "<b>"
  {
    var t := "<b>";
    assert t == "<" + "b>";
    assert !("</b>" <= t) && !("<div>" <= t) && !("</div>" <= t);
    assert t[1..] == "b>";
    ReplaceAllAfterPlain("b>", "", "</b>", "");
    ReplaceAllAfterPlain("b>", "", "<div>", " ");
    ReplaceAllAfterPlain("b>", "", "</div>", "");
    assert "b>" + "" == "b>";
  }

  /** The clean-up is not tag removal: dropping the inner `<b>` of
      `<<b>b>` leaves a `<b>` behind. */
  lemma StripTagsCanLeaveTag()
    ensures StripTags("<<b>b>") == "<b>"
    ensures IsInfix("<b>", StripTags("<<b>b>"))
  {
    var s := "<<b>b>";
    assert s[1] == '<';
    assert !("<b>" <= s);
    assert s[1..] == "<b>" + "b>";
    ReplaceAllAtStart("<b>", "b>", "");
    ReplaceAllAfterPlain("b>", "", "<b>", "");
    assert "b>" + "" == "b>";
    assert ReplaceAll(s, "<b>", "") == "<b>";
    BoldTagKeptByLaterPatterns();
    assert "<b>"[0..] == "<b>";
  }

  /** A closing tag is untouched by a pattern it does not start with: the
      scan moves past its `<` and finds no other. */
  lemma ClosingTagKept(close: string, pat: string, rep: string)
    requires |close| > 1 && close[0] == '<' && '<' !in close[1..]
    requires |pat| > 0 && pat[0] == '<' && !(pat <= close)
    ensures ReplaceAll(close, pat, rep) == close
  {
    ReplaceAllAfterPlain(close[1..], "", pat, rep);
    assert close[1..] + "" == close[1..];
    assert [close[0]] + close[1..] == close;
  }

  /** Tag-free text followed by a closing tag the pattern does not match is
      untouched. */
  lemma TextThenClosingKept(s: string, close: string, pat: string, rep: string)
    requires '<' !in s
    requires |close| > 1 && close[0] == '<' && '<' !in close[1..]
    requires |pat| > 0 && pat[0] == '<' && !(pat <= close)
    ensures ReplaceAll(s + close, pat, rep) == s + close
  {
    ReplaceAllAfterPlain(s, close, pat, rep);
    ClosingTagKept(close, pat, rep);
  }

  /** Tag-free text followed by exactly the pattern loses the pattern. */
  lemma TextThenPatternDropped(s: string, pat: string)
    requires '<' !in s && |pat| > 0 && pat[0] == '<'
    ensures ReplaceAll(s + pat, pat, "") == s
  {
    ReplaceAllAfterPlain(s, pat, pat, "");
    ReplaceAllAtStart(pat, "", "");
    assert pat + "" == pat;
  }

  /** Chains the four passes from separately proved steps. */
  lemma StripTagsBy(s: string, a: string, b: string, c: string, d: string)
    requires ReplaceAll(s, "<b>", "") == a
    requires ReplaceAll(a, "</b>", "") == b
    requires ReplaceAll(b, "<div>", " ") == c
    requires ReplaceAll(c, "</div>", "") == d
    ensures StripTags(s) == d
  {
  }

  /** A bold pattern does not occur in a `div` block around tag-free text:
      its two `<` are followed by `d` and `/d`. */
  lemma DivBlockKeptBy(s: string, pat: string)
    requires '<' !in s
    requires pat == "<b>" || pat == "</b>"
    ensures ReplaceAll("<div>" + s + "</div>", pat, "") == "<div>" + s + "</div>"
  {
    var body := "div>" + s;
    var w := "<div>" + s + "</div>";
    assert '<' !in body;
    assert w[1] == 'd' && w[2] == 'i';
    ReplaceAllSkipsChar(w, pat, "");
    assert w[1..] == body + "</div>";
    assert "</div>"[1] == '/' && "</div>"[2] == 'd';
    TextThenClosingKept(body, "</div>", pat, "");
    assert [w[0]] + (body + "</div>") == w;
  }

  /** An opening tag, tag-free text and a closing tag the opening pattern
      does not match: only the opening tag is replaced. */
  lemma TagPairOpened(open: string, s: string, close: string, rep: string)
    requires |open| > 0 && open[0] == '<' && '<' !in s
    requires |close| > 1 && close[0] == '<' && '<' !in close[1..] && !(open <= close)
    ensures ReplaceAll(open + s + close, open, rep) == rep + s + close
  {
    assert open + s + close == open + (s + close);
    ReplaceAllAtStart(open, s + close, rep);
    TextThenClosingKept(s, close, open, rep);
    assert rep + (s + close) == rep + s + close;
  }

  /** The opening `div` becomes a space. */
  lemma DivOpenSpaced(s: string)
    requires '<' !in s
    ensures ReplaceAll("<div>" + s + "</div>", "<div>", " ") == " " + s + "</div>"
  {
    var close := "</div>";
    assert close[1] == '/' && close[1..] == "/div>";
    TagPairOpened("<div>", s, close, " ");
  }

  /** The closing `div` is then dropped. */
  lemma DivCloseDropped(s: string)
    requires '<' !in s
    ensures ReplaceAll(" " + s + "</div>", "</div>", "") == " " + s
  {
    assert '<' !in " " + s;
    TextThenPatternDropped(" " + s, "</div>");
  }

  /** A `div` block around tag-free text becomes that text set off by a
      leading space. */
  lemma StripTagsDivBlock(s: string)
    requires '<' !in s
    ensures StripTags("<div>" + s + "</div>") == " " + s
  {
    var w := "<div>" + s + "</div>";
    DivBlockKeptBy(s, "<b>");
    DivBlockKeptBy(s, "</b>");
    DivOpenSpaced(s);
    DivCloseDropped(s);
    StripTagsBy(w, w, w, " " + s + "</div>", " " + s);
  }

  /** Bold tags around tag-free text are simply dropped. */
  lemma StripTagsBoldBlock(s: string)
    requires '<' !in s
    ensures StripTags("<b>" + s + "</b>") == s
  {
    var close := "</b>";
    assert close[1] == '/' && close[1..] == "/b>";
    TagPairOpened("<b>", s, close, "");
    assert "" + s + close == s + close;
    TextThenPatternDropped(s, "</b>");
    AbsentLeadNoMatch("<div>", s);
    ReplaceAllWithoutMatch(s, "<div>", " ");
    AbsentLeadNoMatch("</div>", s);
    ReplaceAllWithoutMatch(s, "</div>", "");
    StripTagsBy("<b>" + s + "</b>", s + "</b>", s, s, s);
  }

  // ---------------------------------------------------------------------
  // The report
  // ---------------------------------------------------------------------

  /** Line `n` of the step list, as `enumerate(..., 1)` numbers it. */
  function StepLine(n: nat, st: Step): string {
    NatToDecimal(n) + ". " + StripTags(st.htmlInstructions) + " (" + st.distance + ", " + st.duration + ")"
  }

  /** The step lines of the first ten steps, numbered from one. */
  function NumberedSteps(steps: seq<Step>): seq<string> {
    var shown := Take(steps, MaxSteps);
    seq(|shown|, i requires 0 <= i < |shown| => StepLine(i + 1, shown[i]))
  }

  /** The lines of the triple-quoted header template. */
  function HeaderLines(route: Route, leg: Leg, mode: Mode): seq<string> {
    [ "",
      "Route Summary: " + route.summary.GetOr(DefaultSummary),
      "Distance: " + leg.distance,
      "Duration: " + leg.duration,
      "Travel Mode: " + Title(mode),
      "",
      "Turn-by-Turn Directions:" ]
  }

  /** The report on a route with at least one leg: the header, then one line
      per step appended by the loop. */
  function DirectionsReport(route: Route, mode: Mode): string
    requires |route.legs| > 0
  {
    var leg := route.legs[0];
    Unlines(HeaderLines(route, leg, mode) + NumberedSteps(leg.steps))
  }

  predicate StepSingleLine(st: Step) {
    SingleLine(st.htmlInstructions) && SingleLine(st.distance) && SingleLine(st.duration)
  }

  /** Every field the report prints sits on one line: the summary, the
      leg's distance and duration, and the first ten steps. */
  predicate RouteSingleLine(route: Route)
    requires |route.legs| > 0
  {
    var leg := route.legs[0];
    && SingleLine(route.summary.GetOr(""))
    && SingleLine(leg.distance)
    && SingleLine(leg.duration)
    && (forall i :: 0 <= i < Min(|leg.steps|, MaxSteps) ==> StepSingleLine(leg.steps[i]))
  }

  lemma StepLineSingle(n: nat, st: Step)
    requires StepSingleLine(st)
    ensures SingleLine(StepLine(n, st))
  {
    DigitsHaveNoNewline(NatToDecimal(n));
    StripTagsKeepsSingleLine(st.htmlInstructions);
  }

  lemma HeaderSingleLine(route: Route, mode: Mode)
    requires |route.legs| > 0 && RouteSingleLine(route)
    ensures AllSingleLine(HeaderLines(route, route.legs[0], mode))
  {
    assert SingleLine(route.summary.GetOr(DefaultSummary));
    assert SingleLine(Title(mode));
  }

  lemma StepsSingleLine(steps: seq<Step>)
    requires forall i :: 0 <= i < Min(|steps|, MaxSteps) ==> StepSingleLine(steps[i])
    ensures AllSingleLine(NumberedSteps(steps))
  {
    var lines := NumberedSteps(steps);
    forall i | 0 <= i < |lines|
      ensures SingleLine(lines[i])
    {
      StepLineSingle(i + 1, steps[i]);
    }
  }

  /** Every line of the report, header and steps, is a single line. */
  lemma ReportLinesSingle(route: Route, mode: Mode)
    requires |route.legs| > 0 && RouteSingleLine(route)
    ensures AllSingleLine(HeaderLines(route, route.legs[0], mode) + NumberedSteps(route.legs[0].steps))
  {
    HeaderSingleLine(route, mode);
    StepsSingleLine(route.legs[0].steps);
    AllSingleLineAppend(HeaderLines(route, route.legs[0], mode), NumberedSteps(route.legs[0].steps));
  }

  /** The report reads back as its header and step lines and the empty
      piece after the final newline. */
  lemma ReportReadBack(route: Route, mode: Mode)
    requires |route.legs| > 0 && RouteSingleLine(route)
    ensures Lines(DirectionsReport(route, mode))
         == HeaderLines(route, route.legs[0], mode) + NumberedSteps(route.legs[0].steps) + [""]
  {
    ReportLinesSingle(route, mode);
    LinesOfUnlines(HeaderLines(route, route.legs[0], mode) + NumberedSteps(route.legs[0].steps));
  }

  /** Read back line by line, the report is the seven header lines (the
      summary falling back to "Direct route", the leg's distance and
      duration, the title form of the mode), then the step lines numbered
      1, 2, ... for the first min(n, 10) steps in order, then the empty
      piece after the final newline. */
  lemma DirectionsReportLines(route: Route, mode: Mode)
    requires |route.legs| > 0 && RouteSingleLine(route)
    ensures var leg := route.legs[0];
      var ls := Lines(DirectionsReport(route, mode));
      && |ls| == 8 + Min(|leg.steps|, MaxSteps)
      && ls[0] == ""
      && ls[1] == "Route Summary: " + route.summary.GetOr(DefaultSummary)
      && ls[2] == "Distance: " + leg.distance
      && ls[3] == "Duration: " + leg.duration
      && ls[4] == "Travel Mode: " + Title(mode)
      && ls[5] == ""
      && ls[6] == "Turn-by-Turn Directions:"
      && (forall i :: 0 <= i < Min(|leg.steps|, MaxSteps) ==> ls[7 + i] == StepLine(i + 1, leg.steps[i]))
      && ls[|ls| - 1] == ""
  {
    var leg := route.legs[0];
    var header := HeaderLines(route, leg, mode);
    var steps := NumberedSteps(leg.steps);
    ReportReadBack(route, mode);
    var ls := header + steps + [""];
    assert forall k :: 0 <= k < 7 ==> ls[k] == header[k];
    forall i | 0 <= i < Min(|leg.steps|, MaxSteps)
      ensures ls[7 + i] == StepLine(i + 1, leg.steps[i])
    {
      assert ls[7 + i] == steps[i];
    }
  }

  // ---------------------------------------------------------------------
  // The tool
  // ---------------------------------------------------------------------

  /** The caller-side parameters: the two places and the mode as given. */
  function DirectionsParams(origin: string, destination: string, mode: string): map<string, string> {
    map["origin" := origin, "destination" := destination, "mode" := mode]
  }

  /** The source reads `routes[0]["legs"][0]` without a check: a successful
      reply with a route is assumed to give that route a leg. */
  predicate FirstRouteHasLeg(o: HttpOutcome<DirectionsBody>) {
    Answered(o) && |o.body.routes| > 0 ==> |o.body.routes[0].legs| > 0
  }

  /** What `get_directions` makes of the gateway's answer: the failure
      message exactly when there is no route, otherwise a report that opens
      with an empty line. */
  function RenderDirections(data: Option<DirectionsBody>, mode: Mode): (text: string)
    requires data.Some? && |data.value.routes| > 0 ==> |data.value.routes[0].legs| > 0
    ensures text == DirectionsFailure <==> data.None? || |data.value.routes| == 0
    ensures text != DirectionsFailure ==> |text| > 0 && text[0] == '\n'
  {
    if data.None? || |data.value.routes| == 0 then DirectionsFailure
    else
      var route := data.value.routes[0];
      var leg := route.legs[0];
      UnlinesOpensWithNewline(HeaderLines(route, leg, mode) + NumberedSteps(leg.steps));
      assert DirectionsFailure[0] == 'U';
      DirectionsReport(route, mode)
  }

  /** `get_directions(origin, destination, mode)`: an unknown mode is
      refused before anything is sent; otherwise exactly one request goes
      out with the mode as given. */
  function GetDirections(origin: string, destination: string, mode: string, key: string,
                         net: Request -> HttpOutcome<DirectionsBody>): (r: Reply)
    requires ParseMode(mode).Some? ==>
      FirstRouteHasLeg(net(Outgoing(DirectionsEndpoint, DirectionsParams(origin, destination, mode), key)))
    ensures ParseMode(mode).None? <==> r == Reply(InvalidModeMessage, [])
    ensures ParseMode(mode).Some? ==>
      && r.sent == [Outgoing(DirectionsEndpoint, DirectionsParams(origin, destination, mode), key)]
      && r.sent[0].params["mode"] == mode
      && (r.text == DirectionsFailure <==> !Answered(net(r.sent[0])) || |net(r.sent[0]).body.routes| == 0)
  {
    match ParseMode(mode)
    case None => Reply(InvalidModeMessage, [])
    case Some(m) =>
      var x := Call(net, DirectionsEndpoint, DirectionsParams(origin, destination, mode), key);
      Reply(RenderDirections(x.data, m), [x.sent])
  }

  /** End to end: for a valid mode and a successful reply with a route, the
      text returned lists the first leg's steps, at most ten of them,
      numbered from one, each cleaned of its tags. */
  lemma GetDirectionsSteps(origin: string, destination: string, mode: string, key: string,
                           net: Request -> HttpOutcome<DirectionsBody>)
    requires ParseMode(mode).Some?
    requires var o := net(Outgoing(DirectionsEndpoint, DirectionsParams(origin, destination, mode), key));
      && Answered(o) && |o.body.routes| > 0 && |o.body.routes[0].legs| > 0
      && RouteSingleLine(o.body.routes[0])
    ensures var o := net(Outgoing(DirectionsEndpoint, DirectionsParams(origin, destination, mode), key));
      var steps := o.body.routes[0].legs[0].steps;
      var ls := Lines(GetDirections(origin, destination, mode, key, net).text);
      && |ls| == 8 + Min(|steps|, MaxSteps)
      && forall i :: 0 <= i < Min(|steps|, MaxSteps) ==>
           ls[7 + i] == NatToDecimal(i + 1) + ". " + StripTags(steps[i].htmlInstructions)
                        + " (" + steps[i].distance + ", " + steps[i].duration + ")"
  {
    var o := net(Outgoing(DirectionsEndpoint, DirectionsParams(origin, destination, mode), key));
    DirectionsReportLines(o.body.routes[0], ParseMode(mode).value);
  }
}

=== FILE: gateway.dfy ===
/**
 * The request gateway shared by every tool (`make_google_request`): it adds
 * the credential to the caller's parameters, sends one GET to the mapping
 * service, and hands back the decoded reply only when the service's own
 * status marker says "OK". The HTTP client is not modelled: what the network
 * answers to a request is a parameter, `net`.
 */
module Gateway {
  import opened Wrappers

  const BaseUrl: string := "https://maps.googleapis.com/maps/api"
  /** The query parameter that carries the credential. */
  const KeyParam: string := "key"
  /** The service's success marker. */
  const OkStatus: string := "OK"

  /** One outbound GET: the full URL and its query parameters. */
  datatype Request = Request(url: string, params: map<string, string>)

  /** What one GET can come to. Any exception the client raises (connection
      failure, timeout, a body that is not a JSON object) is
      `TransportFailure`; a non-success HTTP status is `HttpError`; otherwise
      the decoded object, with its `status` field when it has one. */
  datatype HttpOutcome<T> =
    | TransportFailure
    | HttpError(code: int)
    | Received(status: Option<string>, body: T)

  /** The text a tool hands back, and every request it sent on the way. */
  datatype Reply = Reply(text: string, sent: seq<Request>)

  /** The request sent for `endpoint` with the caller's `params`: the
      credential is added under `key`, overriding any caller value there, and
      every other caller parameter is passed through untouched. */
  function Outgoing(endpoint: string, params: map<string, string>, key: string): (req: Request)
    ensures req.url == BaseUrl + "/" + endpoint
    ensures KeyParam in req.params && req.params[KeyParam] == key
    ensures req.params.Keys == params.Keys + {KeyParam}
    ensures forall k :: k in params && k != KeyParam ==> req.params[k] == params[k]
  {
    Request(BaseUrl + "/" + endpoint, params[KeyParam := key])
  }

  /** The call got through and the service reported success. */
  predicate Answered<T>(o: HttpOutcome<T>) {
    o.Received? && o.status == Some(OkStatus)
  }

  /** The envelope check: the decoded reply, or nothing when the call failed
      at the transport, at HTTP level, or with any status other than "OK"
      (including none at all). */
  function Interpret<T>(o: HttpOutcome<T>): (r: Option<T>)
    ensures r.Some? <==> o.Received? && o.status == Some(OkStatus)
    ensures o.TransportFailure? || o.HttpError? ==> r.None?
    ensures r.Some? ==> r.value == o.body
  {
    match o
    case Received(status, body) => if status == Some(OkStatus) then Some(body) else None
    case _ => None
  }

  /** One exchange with the service: the request sent and what came of it. */
  datatype Exchange<T> = Exchange(sent: Request, data: Option<T>)

  /** `make_google_request(endpoint, params)` against the network `net`. */
  function Call<T>(net: Request -> HttpOutcome<T>, endpoint: string, params: map<string, string>, key: string): (x: Exchange<T>)
    ensures x.sent.url == BaseUrl + "/" + endpoint
    ensures x.sent.params == params[KeyParam := key]
    ensures x.data.Some? <==> Answered(net(x.sent))
    ensures x.data.Some? ==> x.data.value == net(x.sent).body
  {
    var req := Outgoing(endpoint, params, key);
    Exchange(req, Interpret(net(req)))
  }
}

=== FILE: geocode.dfy ===
/**
 * `geocode_address` and `reverse_geocode`: one request to `geocode/json` and
 * a short report on the first result. Coordinates are the service's numbers
 * as Python prints them, carried here as already formatted text.
 */
module Geocode {
  import opened Wrappers
  import opened Text
  import opened Gateway

  datatype GeocodeResult = GeocodeResult(formattedAddress: string, lat: string, lng: string, placeId: string)

  /** An absent `results` list reads like an empty one. */
  datatype GeocodeBody = GeocodeBody(results: seq<GeocodeResult>)

  const GeocodeEndpoint: string := "geocode/json"
  const GeocodeFailure: string := "Unable to geocode the provided address."
  const ReverseFailure: string := "Unable to reverse geocode " + "the provided coordinates."

  /** The upstream reply was usable: answered "OK" with at least one result. */
  predicate Found(data: Option<GeocodeBody>) {
    data.Some? && |data.value.results| > 0
  }

  function AddressLines(r: GeocodeResult): seq<string> {
    ["", "Address: " + r.formattedAddress, "Coordinates: " + r.lat + ", " + r.lng, "Place ID: " + r.placeId]
  }

  /** The report of `geocode_address` on the first result. */
  function GeocodeReport(r: GeocodeResult): string {
    Unlines(AddressLines(r))
  }

  /** The address, both coordinates and the place id appear in the report
      verbatim. */
  lemma GeocodeReportMentions(r: GeocodeResult)
    ensures IsInfix(r.formattedAddress, GeocodeReport(r))
    ensures IsInfix(r.lat, GeocodeReport(r))
    ensures IsInfix(r.lng, GeocodeReport(r))
    ensures IsInfix(r.placeId, GeocodeReport(r))
  {
    var ls := AddressLines(r);
    FieldOccursInUnlines(ls, 1, "Address: ", r.formattedAddress, "");
    FieldOccursInUnlines(ls, 2, "Coordinates: ", r.lat, ", " + r.lng);
    FieldOccursInUnlines(ls, 2, "Coordinates: " + r.lat + ", ", r.lng, "");
    FieldOccursInUnlines(ls, 3, "Place ID: ", r.placeId, "");
  }

  /** With single-line fields, the report reads back as exactly these lines. */
  lemma GeocodeReportLines(r: GeocodeResult)
    requires SingleLine(r.formattedAddress) && SingleLine(r.lat) && SingleLine(r.lng) && SingleLine(r.placeId)
    ensures Lines(GeocodeReport(r)) ==
      ["", "Address: " + r.formattedAddress, "Coordinates: " + r.lat + ", " + r.lng, "Place ID: " + r.placeId, ""]
  {
    LinesOfUnlines(AddressLines(r));
  }

  /** What `geocode_address` makes of the gateway's answer: its fixed failure
      message exactly when there is nothing usable, otherwise a report on the
      first result that quotes its address, coordinates and place id. */
  function RenderGeocode(data: Option<GeocodeBody>): (text: string)
    ensures text == GeocodeFailure <==> !Found(data)
    ensures Found(data) ==>
      var first := data.value.results[0];
      && IsInfix(first.formattedAddress, text)
      && IsInfix(first.lat, text)
      && IsInfix(first.lng, text)
      && IsInfix(first.placeId, text)
  {
    if !Found(data) then GeocodeFailure
    else
      var first := data.value.results[0];
      GeocodeReportMentions(first);
      UnlinesOpensWithNewline(AddressLines(first));
      assert GeocodeFailure[0] == 'U';
      GeocodeReport(first)
  }

  /** `geocode_address(address)`. */
  function GeocodeAddress(address: string, key: string, net: Request -> HttpOutcome<GeocodeBody>): (r: Reply)
    ensures r.sent == [Request(BaseUrl + "/" + GeocodeEndpoint, map["address" := address, KeyParam := key])]
    ensures r.text == GeocodeFailure <==> !Answered(net(r.sent[0])) || |net(r.sent[0]).body.results| == 0
  {
    var x := Call(net, GeocodeEndpoint, map["address" := address], key);
    Reply(RenderGeocode(x.data), [x.sent])
  }

  function ReverseLines(r: GeocodeResult, lat: string, lng: string): seq<string> {
    ["", "Formatted Address: " + r.formattedAddress, "Place ID: " + r.placeId, "Coordinates: " + lat + ", " + lng]
  }

  function ReverseReport(r: GeocodeResult, lat: string, lng: string): string {
    Unlines(ReverseLines(r, lat, lng))
  }

  /** The address and place id of the result, and the coordinates the caller
      asked about (not the service's), appear in the report verbatim. */
  lemma ReverseReportMentions(r: GeocodeResult, lat: string, lng: string)
    ensures IsInfix(r.formattedAddress, ReverseReport(r, lat, lng))
    ensures IsInfix(r.placeId, ReverseReport(r, lat, lng))
    ensures IsInfix("Coordinates: " + lat + ", " + lng, ReverseReport(r, lat, lng))
  {
    var ls := ReverseLines(r, lat, lng);
    FieldOccursInUnlines(ls, 1, "Formatted Address: ", r.formattedAddress, "");
    FieldOccursInUnlines(ls, 2, "Place ID: ", r.placeId, "");
    FieldOccursInUnlines(ls, 3, "", "Coordinates: " + lat + ", " + lng, "");
  }

  /** With single-line fields, the reverse report reads back as exactly
      these lines: the result's address and place id, then the caller's
      coordinates. */
  lemma ReverseReportLines(r: GeocodeResult, lat: string, lng: string)
    requires SingleLine(r.formattedAddress) && SingleLine(r.placeId) && SingleLine(lat) && SingleLine(lng)
    ensures Lines(ReverseReport(r, lat, lng)) ==
      ["", "Formatted Address: " + r.formattedAddress, "Place ID: " + r.placeId, "Coordinates: " + lat + ", " + lng, ""]
  {
    LinesOfUnlines(ReverseLines(r, lat, lng));
  }

  /** What `reverse_geocode` makes of the gateway's answer. */
  function RenderReverse(data: Option<GeocodeBody>, lat: string, lng: string): (text: string)
    ensures text == ReverseFailure <==> !Found(data)
    ensures Found(data) ==>
      && IsInfix(data.value.results[0].formattedAddress, text)
      && IsInfix(data.value.results[0].placeId, text)
      && IsInfix("Coordinates: " + lat + ", " + lng, text)
  {
    if !Found(data) then ReverseFailure
    else
      var first := data.value.results[0];
      ReverseReportMentions(first, lat, lng);
      UnlinesOpensWithNewline(ReverseLines(first, lat, lng));
      assert ReverseFailure[0] == 'U';
      ReverseReport(first, lat, lng)
  }

  /** On a usable reply with single-line fields, the rendered text is the
      first result's address and place id followed by the coordinates the
      caller passed, and no other line: the service's own coordinates for
      the result are never shown. */
  lemma RenderReverseLines(data: Option<GeocodeBody>, lat: string, lng: string)
    requires Found(data)
    requires SingleLine(data.value.results[0].formattedAddress) && SingleLine(data.value.results[0].placeId)
    requires SingleLine(lat) && SingleLine(lng)
    ensures var first := data.value.results[0];
      Lines(RenderReverse(data, lat, lng)) ==
        ["", "Formatted Address: " + first.formattedAddress, "Place ID: " + first.placeId,
         "Coordinates: " + lat + ", " + lng, ""]
  {
    ReverseReportLines(data.value.results[0], lat, lng);
  }

  /** `reverse_geocode(latitude, longitude)`; `lat` and `lng` are the two
      numbers as Python prints them. */
  function ReverseGeocode(lat: string, lng: string, key: string, net: Request -> HttpOutcome<GeocodeBody>): (r: Reply)
    ensures r.sent == [Request(BaseUrl + "/" + GeocodeEndpoint, map["latlng" := lat + "," + lng, KeyParam := key])]
    ensures r.text == ReverseFailure <==> !Answered(net(r.sent[0])) || |net(r.sent[0]).body.results| == 0
  {
    var x := Call(net, GeocodeEndpoint, map["latlng" := lat + "," + lng], key);
    Reply(RenderReverse(x.data, lat, lng), [x.sent])
  }

  /** The worked example: geocoding Google's headquarters, with the service
      answering one result, reports its address, coordinates and place id. */
  lemma HeadquartersExample(key: string)
    ensures
      var net := (req: Request) => Received(Some("OK"), GeocodeBody([GeocodeResult(
        "1600 Amphitheatre Parkway, Mountain View, CA, USA", "37.4224764", "-122.0842499",
        "ChIJ2eUgeAK6j4ARbn5u_wAGqWA")]));
      var r := GeocodeAddress("1600 Amphitheatre Parkway, Mountain View, CA", key, net);
      && IsInfix("1600 Amphitheatre Parkway, Mountain View, CA, USA", r.text)
      && IsInfix("37.4224764", r.text)
      && IsInfix("-122.0842499", r.text)
      && IsInfix("ChIJ2eUgeAK6j4ARbn5u_wAGqWA", r.text)
  {
  }
}

=== FILE: matrix.dfy ===
/**
 * `calculate_distance_matrix`: a checked travel mode, one request with the
 * origins and destinations each joined by `|`, and a grid report with one
 * block per origin address and one line per destination address.
 */
module DistanceMatrix {
  import opened Wrappers
  import opened Text
  import opened Gateway
  import opened Travel

  /** One cell of the grid. `distance` and `duration` are the `text` fields
      of the nested objects and are read only when `status` is "OK". */
  datatype Element = Element(status: string, distance: string, duration: string)

  datatype Row = Row(elements: seq<Element>)

  /** `origin_addresses` and `destination_addresses` are read
      unconditionally; an absent `rows` list reads like an empty one. */
  datatype MatrixBody = MatrixBody(
    originAddresses: seq<string>,
    destinationAddresses: seq<string>,
    rows: seq<Row>)

  const MatrixEndpoint: string := "distancematrix/json"
  const MatrixFailure: string := "Unable to calculate distance matrix."
  const Unavailable: string := "Route not available"
  const BarSeparator: string := "|"

  /** The caller-side parameters: each list joined by `|`, the mode as given. */
  function MatrixParams(origins: seq<string>, destinations: seq<string>, mode: string): map<string, string> {
    map["origins" := Join(BarSeparator, origins),
        "destinations" := Join(BarSeparator, destinations),
        "mode" := mode]
  }

  predicate NoBar(places: seq<string>) {
    forall i :: 0 <= i < |places| ==> '|' !in places[i]
  }

  /** The joined parameters split back into the caller's lists, as long as
      each list is non-empty and no place contains a `|` itself. */
  lemma MatrixParamsRoundTrip(origins: seq<string>, destinations: seq<string>, mode: string)
    requires |origins| > 0 && NoBar(origins)
    requires |destinations| > 0 && NoBar(destinations)
    ensures Split(MatrixParams(origins, destinations, mode)["origins"], BarSeparator) == origins
    ensures Split(MatrixParams(origins, destinations, mode)["destinations"], BarSeparator) == destinations
  {
    SplitJoinRoundTrip(origins, '|');
    SplitJoinRoundTrip(destinations, '|');
  }

  /** A place containing `|` is not recovered: "a|b" as one origin reads
      back as two. */
  lemma BarInPlaceSplits()
    ensures Split(MatrixParams(["a|b"], ["c"], "driving")["origins"], BarSeparator) == ["a", "b"]
  {
    SplitAroundSeparator("a", '|', "b");
    SplitWithoutSeparator("a", '|');
    SplitWithoutSeparator("b", '|');
    assert "a|b" == "a" + ['|'] + "b";
  }

  /** The source indexes `rows[i]["elements"][j]` for every origin and
      destination address: the reply is assumed to hold that many. The
      indexing sits inside the loop over destinations, so a reply without
      destination addresses needs no rows for its origins. */
  predicate Covers(b: MatrixBody) {
    |b.destinationAddresses| > 0 ==>
      && |b.rows| >= |b.originAddresses|
      && forall i :: 0 <= i < |b.originAddresses| ==> |b.rows[i].elements| >= |b.destinationAddresses|
  }

  /** The row the inner loop reads for origin `i`. Without destination
      addresses the loop reads none, and an empty row stands in. */
  function RowFor(b: MatrixBody, i: nat): (row: Row)
    requires Covers(b) && i < |b.originAddresses|
    ensures |row.elements| >= |b.destinationAddresses|
    ensures |b.destinationAddresses| > 0 ==> row == b.rows[i]
  {
    if |b.destinationAddresses| == 0 then Row([]) else b.rows[i]
  }

  /** The text after a destination's name: the distance and duration of a
      route, or the fixed notice when the cell's status is anything but "OK". */
  function ElementText(e: Element): (t: string)
    ensures t == Unavailable <==> e.status != OkStatus
    ensures e.status == OkStatus ==> IsInfix(e.distance, t) && IsInfix(e.duration, t)
  {
    if e.status == OkStatus then
      var t := e.distance + " (" + e.duration + ")";
      assert t[|t| - 1] == ')' && Unavailable[|Unavailable| - 1] == 'e';
      assert e.distance <= t[0..];
      assert e.duration <= t[|e.distance| + 2..];
      t
    else Unavailable
  }

  function DestinationLine(dest: string, e: Element): string {
    "  To " + dest + ": " + ElementText(e)
  }

  /** The lines one origin contributes: its name, one line per destination
      address read against the row's cells, and an empty line. */
  function OriginBlock(origin: string, dests: seq<string>, row: Row): seq<string>
    requires |row.elements| >= |dests|
  {
    ["From: " + origin] + DestinationLines(dests, row.elements) + [""]
  }

  /** The inner loop: one line per destination address, read against the
      cell in the same position. */
  function DestinationLines(dests: seq<string>, elements: seq<Element>): (ls: seq<string>)
    requires |elements| >= |dests|
    ensures |ls| == |dests|
  {
    seq(|dests|, j requires 0 <= j < |dests| => DestinationLine(dests[j], elements[j]))
  }

  function OriginBlocks(b: MatrixBody): seq<seq<string>>
    requires Covers(b)
  {
    seq(|b.originAddresses|, i requires 0 <= i < |b.originAddresses| =>
      OriginBlock(b.originAddresses[i], b.destinationAddresses, RowFor(b, i)))
  }

  /** The height of every origin block: its name line, one line per
      destination address, and the empty line after them. */
  function BlockHeight(b: MatrixBody): nat {
    |b.destinationAddresses| + 2
  }

  function TitleLine(mode: Mode): string {
    "Distance Matrix (" + Title(mode) + " mode):"
  }

  /** Every line the report is built from: the title and an empty line from
      the opening f-string, then the origins' blocks in order. */
  function MatrixLines(b: MatrixBody, mode: Mode): seq<string>
    requires Covers(b)
  {
    [TitleLine(mode), ""] + Flatten(OriginBlocks(b))
  }

  /** The report: each line followed by a newline, which is what the
      loop's `+=` of newline-terminated pieces produces. */
  function MatrixReport(b: MatrixBody, mode: Mode): string
    requires Covers(b)
  {
    Unlines(MatrixLines(b, mode))
  }

  predicate MatrixSingleLine(b: MatrixBody)
    requires Covers(b)
  {
    && AllSingleLine(b.originAddresses)
    && AllSingleLine(b.destinationAddresses)
    && forall i, j :: 0 <= i < |b.originAddresses| && 0 <= j < |b.destinationAddresses| ==>
         SingleLine(RowFor(b, i).elements[j].distance) && SingleLine(RowFor(b, i).elements[j].duration)
  }

  /** The name line, destination `j`'s line and the height of origin `i`'s
      block. */
  lemma OriginBlockAt(b: MatrixBody, i: nat, j: nat)
    requires Covers(b) && i < |b.originAddresses| && j < |b.destinationAddresses|
    ensures var blk := OriginBlocks(b)[i];
      && |blk| == |b.destinationAddresses| + 2
      && blk[0] == "From: " + b.originAddresses[i]
      && blk[1 + j] == DestinationLine(b.destinationAddresses[j], b.rows[i].elements[j])
  {
  }

  lemma DestinationLineSingle(dest: string, e: Element)
    requires SingleLine(dest) && SingleLine(e.distance) && SingleLine(e.duration)
    ensures SingleLine(DestinationLine(dest, e))
  {
  }

  lemma OriginBlockSingleLine(origin: string, dests: seq<string>, row: Row)
    requires |row.elements| >= |dests|
    requires SingleLine(origin) && AllSingleLine(dests)
    requires forall j :: 0 <= j < |dests| ==>
      SingleLine(row.elements[j].distance) && SingleLine(row.elements[j].duration)
    ensures AllSingleLine(OriginBlock(origin, dests, row))
  {
    var middle := DestinationLines(dests, row.elements);
    forall j | 0 <= j < |middle|
      ensures SingleLine(middle[j])
    {
      assert SingleLine(dests[j]);
      DestinationLineSingle(dests[j], row.elements[j]);
    }
    AllSingleLineAppend(["From: " + origin], middle);
    AllSingleLineAppend(["From: " + origin] + middle, [""]);
  }

  /** Every line of the grid is a single line. */
  lemma MatrixLinesSingle(b: MatrixBody, mode: Mode)
    requires Covers(b) && MatrixSingleLine(b)
    ensures AllSingleLine(MatrixLines(b, mode))
  {
    var blocks := OriginBlocks(b);
    forall i | 0 <= i < |blocks|
      ensures AllSingleLine(blocks[i])
    {
      var row := RowFor(b, i);
      assert blocks[i] == OriginBlock(b.originAddresses[i], b.destinationAddresses, row);
      assert SingleLine(b.originAddresses[i]);
      assert forall j :: 0 <= j < |b.destinationAddresses| ==>
        SingleLine(row.elements[j].distance) && SingleLine(row.elements[j].duration);
      OriginBlockSingleLine(b.originAddresses[i], b.destinationAddresses, row);
    }
    FlattenSingleLine(blocks);
    AllSingleLineAppend([TitleLine(mode), ""], Flatten(blocks));
  }

  /** Read back line by line, the report is exactly its lines and the empty
      piece after the final newline. */
  lemma MatrixReportLines(b: MatrixBody, mode: Mode)
    requires Covers(b) && MatrixSingleLine(b)
    ensures Lines(MatrixReport(b, mode)) == MatrixLines(b, mode) + [""]
  {
    MatrixLinesSingle(b, mode);
    LinesOfUnlines(MatrixLines(b, mode));
  }

  /** Each origin block opens with the only "From: " line in it and holds
      one "  To " line per destination address. */
  lemma OriginBlockCounts(b: MatrixBody, i: nat)
    requires Covers(b) && i < |b.originAddresses|
    ensures CountWithPrefix(OriginBlocks(b)[i], "From: ") == 1
    ensures CountWithPrefix(OriginBlocks(b)[i], "  To ") == |b.destinationAddresses|
  {
    var dests := b.destinationAddresses;
    var row := RowFor(b, i);
    var middle := DestinationLines(dests, row.elements);
    var first := ["From: " + b.originAddresses[i]];
    assert OriginBlocks(b)[i] == first + middle + [""];
    forall j | 0 <= j < |middle|
      ensures "  To " <= middle[j] && !("From: " <= middle[j])
    {
      assert middle[j][0] == ' ';
    }
    CountWithPrefixAll(middle, "  To ");
    CountWithPrefixNone(middle, "From: ");
    assert ("From: " + b.originAddresses[i])[0] == 'F';
    CountWithPrefixAll(first, "From: ");
    CountWithPrefixNone(first, "  To ");
    CountWithPrefixNone([""], "From: ");
    CountWithPrefixNone([""], "  To ");
    CountWithPrefixAppend(first, middle, "From: ");
    CountWithPrefixAppend(first, middle, "  To ");
    CountWithPrefixAppend(first + middle, [""], "From: ");
    CountWithPrefixAppend(first + middle, [""], "  To ");
  }

  /** The title and the empty line after it name no origin and no
      destination. */
  lemma HeadCounts(mode: Mode)
    ensures CountWithPrefix([TitleLine(mode), ""], "From: ") == 0
    ensures CountWithPrefix([TitleLine(mode), ""], "  To ") == 0
  {
    var head := [TitleLine(mode), ""];
    assert head[0][0] == 'D';
    CountWithPrefixNone(head, "From: ");
    CountWithPrefixNone(head, "  To ");
  }

  /** The grid has one "From: " line per origin address and one "  To "
      line per (origin, destination) pair. */
  lemma MatrixLineCounts(b: MatrixBody, mode: Mode)
    requires Covers(b)
    ensures CountWithPrefix(MatrixLines(b, mode), "From: ") == |b.originAddresses|
    ensures CountWithPrefix(MatrixLines(b, mode), "  To ") == |b.originAddresses| * |b.destinationAddresses|
  {
    var blocks := OriginBlocks(b);
    forall i | 0 <= i < |blocks|
      ensures CountWithPrefix(blocks[i], "From: ") == 1
      ensures CountWithPrefix(blocks[i], "  To ") == |b.destinationAddresses|
    {
      OriginBlockCounts(b, i);
    }
    CountWithPrefixFlatten(blocks, "From: ", 1);
    CountWithPrefixFlatten(blocks, "  To ", |b.destinationAddresses|);
    var head := [TitleLine(mode), ""];
    HeadCounts(mode);
    CountWithPrefixAppend(head, Flatten(blocks), "From: ");
    CountWithPrefixAppend(head, Flatten(blocks), "  To ");
  }

  /** Every origin block has the same height. */
  lemma BlocksUniform(b: MatrixBody)
    requires Covers(b)
    ensures forall k :: 0 <= k < |OriginBlocks(b)| ==> |OriginBlocks(b)[k]| == BlockHeight(b)
  {
  }

  /** Where each origin lands: origin `i` opens its block on line
      `2 + i * h`, `h` being the block height. */
  lemma MatrixOriginLine(b: MatrixBody, mode: Mode, i: nat)
    requires Covers(b) && i < |b.originAddresses|
    ensures |MatrixLines(b, mode)| == 2 + |b.originAddresses| * BlockHeight(b)
    ensures 2 + i * BlockHeight(b) < |MatrixLines(b, mode)|
    ensures MatrixLines(b, mode)[2 + i * BlockHeight(b)] == "From: " + b.originAddresses[i]
  {
    BlocksUniform(b);
    assert OriginBlocks(b)[i][0] == "From: " + b.originAddresses[i];
    LineOfBlock(MatrixLines(b, mode), [TitleLine(mode), ""], OriginBlocks(b),
                |b.originAddresses|, BlockHeight(b), i, 0, 2 + i * BlockHeight(b));
  }

  /** Line `j + 1` of origin `i`'s block, located in the whole grid. */
  lemma BlockLineInGrid(b: MatrixBody, mode: Mode, i: nat, j: nat)
    requires Covers(b) && i < |b.originAddresses| && j < |b.destinationAddresses|
    ensures 2 + i * BlockHeight(b) + 1 + j < |MatrixLines(b, mode)|
    ensures MatrixLines(b, mode)[2 + i * BlockHeight(b) + 1 + j] == OriginBlocks(b)[i][1 + j]
  {
    BlocksUniform(b);
    LineOfBlock(MatrixLines(b, mode), [TitleLine(mode), ""], OriginBlocks(b),
                |b.originAddresses|, BlockHeight(b), i, 1 + j, 2 + i * BlockHeight(b) + 1 + j);
  }

  /** Where each cell lands: destination `j` follows origin `i`'s line on
      line `j + 1` of its block, quoting the cell `rows[i].elements[j]`. */
  lemma MatrixCellLine(b: MatrixBody, mode: Mode, i: nat, j: nat)
    requires Covers(b) && i < |b.originAddresses| && j < |b.destinationAddresses|
    ensures 2 + i * BlockHeight(b) + 1 + j < |MatrixLines(b, mode)|
    ensures MatrixLines(b, mode)[2 + i * BlockHeight(b) + 1 + j]
            == DestinationLine(b.destinationAddresses[j], b.rows[i].elements[j])
  {
    BlockLineInGrid(b, mode, i, j);
    OriginBlockAt(b, i, j);
  }

  // ---------------------------------------------------------------------
  // The tool
  // ---------------------------------------------------------------------

  /** A successful reply with rows is assumed to cover its addresses. */
  predicate RowsCover(o: HttpOutcome<MatrixBody>) {
    Answered(o) && |o.body.rows| > 0 ==> Covers(o.body)
  }

  /** What `calculate_distance_matrix` makes of the gateway's answer: the
      failure message exactly when there are no rows, otherwise the grid
      report, which opens with its title. */
  function RenderMatrix(data: Option<MatrixBody>, mode: Mode): (text: string)
    requires data.Some? && |data.value.rows| > 0 ==> Covers(data.value)
    ensures text == MatrixFailure <==> data.None? || |data.value.rows| == 0
    ensures text != MatrixFailure ==> TitleLine(mode) <= text
  {
    if data.None? || |data.value.rows| == 0 then MatrixFailure
    else
      var ls := MatrixLines(data.value, mode);
      assert Unlines(ls) == TitleLine(mode) + ("\n" + Unlines(ls[1..]));
      assert TitleLine(mode)[0] == 'D' && MatrixFailure[0] == 'U';
      MatrixReport(data.value, mode)
  }

  /** The lines of a grid over two origins and no destination addresses. */
  lemma NoDestinationsLines(b: MatrixBody, mode: Mode)
    requires |b.originAddresses| == 2 && |b.destinationAddresses| == 0
    ensures Covers(b)
    ensures MatrixLines(b, mode)
         == [TitleLine(mode), "", "From: " + b.originAddresses[0], "", "From: " + b.originAddresses[1], ""]
  {
    var blocks := OriginBlocks(b);
    var first := ["From: " + b.originAddresses[0], ""];
    var second := ["From: " + b.originAddresses[1], ""];
    assert blocks[0] == first && blocks[1] == second;
    assert blocks[1..][1..] == [];
    assert Flatten(blocks[1..]) == second + Flatten(blocks[1..][1..]);
    assert Flatten(blocks) == first + second;
  }

  /** Such a grid is rendered, not refused, once the reply has any row. */
  lemma NoDestinationsReport(b: MatrixBody, mode: Mode)
    requires |b.originAddresses| == 2 && |b.destinationAddresses| == 0 && |b.rows| > 0
    ensures Covers(b)
    ensures RenderMatrix(Some(b), mode)
         == Unlines([TitleLine(mode), "", "From: " + b.originAddresses[0], "", "From: " + b.originAddresses[1], ""])
  {
    NoDestinationsLines(b, mode);
  }

  /** A reply with two origins, no destination addresses and a single empty
      row is rendered, not refused: each origin gets its name line and an
      empty line, and no row is read for the second origin. */
  lemma NoDestinationsRendered(a: string, c: string)
    ensures var b := MatrixBody([a, c], [], [Row([])]);
      && Covers(b)
      && RenderMatrix(Some(b), Driving)
         == Unlines(["Distance Matrix (Driving mode):", "", "From: " + a, "", "From: " + c, ""])
  {
    NoDestinationsReport(MatrixBody([a, c], [], [Row([])]), Driving);
    assert TitleLine(Driving) == "Distance Matrix (Driving mode):";
  }

  /** `calculate_distance_matrix(origins, destinations, mode)`: an unknown
      mode is refused before anything is sent; otherwise exactly one request
      goes out. */
  function CalculateDistanceMatrix(origins: seq<string>, destinations: seq<string>, mode: string, key: string,
                                   net: Request -> HttpOutcome<MatrixBody>): (r: Reply)
    requires ParseMode(mode).Some? ==>
      RowsCover(net(Outgoing(MatrixEndpoint, MatrixParams(origins, destinations, mode), key)))
    ensures ParseMode(mode).None? <==> r == Reply(InvalidModeMessage, [])
    ensures ParseMode(mode).Some? ==>
      && r.sent == [Outgoing(MatrixEndpoint, MatrixParams(origins, destinations, mode), key)]
      && r.sent[0].params["origins"] == Join(BarSeparator, origins)
      && r.sent[0].params["destinations"] == Join(BarSeparator, destinations)
      && (r.text == MatrixFailure <==> !Answered(net(r.sent[0])) || |net(r.sent[0]).body.rows| == 0)
  {
    match ParseMode(mode)
    case None => Reply(InvalidModeMessage, [])
    case Some(m) =>
      var x := Call(net, MatrixEndpoint, MatrixParams(origins, destinations, mode), key);
      Reply(RenderMatrix(x.data, m), [x.sent])
  }

  /** End to end: for a valid mode and a successful reply with rows, the
      text returned reads back with one "From: " line per origin address and
      one "  To " line per origin and destination pair. */
  lemma CalculateDistanceMatrixGrid(origins: seq<string>, destinations: seq<string>, mode: string, key: string,
                                    net: Request -> HttpOutcome<MatrixBody>)
    requires ParseMode(mode).Some?
    requires var o := net(Outgoing(MatrixEndpoint, MatrixParams(origins, destinations, mode), key));
      Answered(o) && |o.body.rows| > 0 && Covers(o.body) && MatrixSingleLine(o.body)
    ensures var o := net(Outgoing(MatrixEndpoint, MatrixParams(origins, destinations, mode), key));
      var ls := Lines(CalculateDistanceMatrix(origins, destinations, mode, key, net).text);
      && CountWithPrefix(ls, "From: ") == |o.body.originAddresses|
      && CountWithPrefix(ls, "  To ") == |o.body.originAddresses| * |o.body.destinationAddresses|
  {
    var o := net(Outgoing(MatrixEndpoint, MatrixParams(origins, destinations, mode), key));
    var m := ParseMode(mode).value;
    MatrixReportLines(o.body, m);
    MatrixLineCounts(o.body, m);
    CountWithPrefixNone([""], "From: ");
    CountWithPrefixNone([""], "  To ");
    CountWithPrefixAppend(MatrixLines(o.body, m), [""], "From: ");
    CountWithPrefixAppend(MatrixLines(o.body, m), [""], "  To ");
  }
}

=== FILE: search.dfy ===
/**
 * `search_places`: a text search whose optional centre and radius are sent
 * only when given, and a report on at most five of the places found.
 */
module Search {
  import opened Wrappers
  import opened Text
  import opened Decimal
  import opened Gateway

  /** One search hit. `name` and `place_id` are read unconditionally; a
      missing `types` list reads like an empty one. */
  datatype Place = Place(
    name: string,
    formattedAddress: Option<string>,
    rating: Option<string>,
    types: seq<string>,
    placeId: string)

  datatype SearchBody = SearchBody(results: seq<Place>)

  const SearchEndpoint: string := "place/textsearch/json"
  const SearchFailure: string := "No places found for the search query."
  const MaxPlaces: nat := 5
  const PlaceSeparator: string := "\n---\n"

  /** Python's `if location:` — present and not the empty string. */
  predicate LocationGiven(location: Option<string>) {
    location.Some? && location.value != ""
  }

  /** Python's `if radius:` — present and not zero. */
  predicate RadiusGiven(radius: Option<int>) {
    radius.Some? && radius.value != 0
  }

  /** The caller-side parameters of a search: the query always, the centre
      only when given, and the radius only when given, written as a decimal
      numeral that reads back as the radius. */
  function SearchParams(query: string, location: Option<string>, radius: Option<int>): (params: map<string, string>)
    ensures params.Keys <= {"query", "location", "radius"}
    ensures "query" in params && params["query"] == query
    ensures "location" in params <==> LocationGiven(location)
    ensures "location" in params ==> params["location"] == location.value
    ensures "radius" in params <==> RadiusGiven(radius)
    ensures "radius" in params ==> ParseInt(params["radius"]) == Some(radius.value)
  {
    var withQuery := map["query" := query];
    var withLocation := if LocationGiven(location) then withQuery["location" := location.value] else withQuery;
    if RadiusGiven(radius) then
      IntDecimalRoundTrip(radius.value);
      withLocation["radius" := IntToDecimal(radius.value)]
    else withLocation
  }

  /** The lines of one place's block, with placeholders for a missing
      address or rating. */
  function PlaceLines(p: Place): seq<string> {
    [ "",
      "Name: " + p.name,
      "Address: " + p.formattedAddress.GetOr("Address not available"),
      "Rating: " + p.rating.GetOr("No rating") + " stars",
      "Types: " + Join(", ", p.types),
      "Place ID: " + p.placeId ]
  }

  function PlaceBlock(p: Place): string {
    Unlines(PlaceLines(p))
  }

  /** The blocks of the loop over `results[:5]`, in order. */
  function PlaceBlocks(ps: seq<Place>): (blocks: seq<string>)
    ensures |blocks| == |ps|
  {
    if |ps| == 0 then [] else [PlaceBlock(ps[0])] + PlaceBlocks(ps[1..])
  }

  /** The report on a result list: at most five blocks joined by a `---`
      line. It is empty exactly when there are no places, and otherwise opens
      with the first block's empty line. */
  function RenderPlaces(ps: seq<Place>): (r: string)
    ensures |ps| == 0 ==> r == ""
    ensures |ps| > 0 ==> |r| > 0 && r[0] == '\n'
  {
    var blocks := PlaceBlocks(Take(ps, MaxPlaces));
    if |ps| > 0 then
      assert blocks[0] == PlaceBlock(ps[0]);
      UnlinesOpensWithNewline(PlaceLines(ps[0]));
      Join(PlaceSeparator, blocks)
    else Join(PlaceSeparator, blocks)
  }

  predicate PlaceSingleLine(p: Place) {
    && SingleLine(p.name)
    && SingleLine(p.formattedAddress.GetOr(""))
    && SingleLine(p.rating.GetOr(""))
    && AllSingleLine(p.types)
    && SingleLine(p.placeId)
  }

  /** A block reads back as its lines, the placeholders included. */
  lemma PlaceBlockLines(p: Place)
    requires PlaceSingleLine(p)
    ensures Lines(PlaceBlock(p)) == PlaceLines(p) + [""]
  {
    JoinKeepsCharOut('\n', ", ", p.types);
    LinesOfUnlines(PlaceLines(p));
  }

  /** Read back, a block names the place and shows its address and rating,
      or the placeholder for whichever of the two is missing. */
  lemma PlaceBlockPlaceholders(p: Place)
    requires PlaceSingleLine(p)
    ensures var ls := Lines(PlaceBlock(p));
      && |ls| == 7
      && ls[1] == "Name: " + p.name
      && (p.formattedAddress.Some? ==> ls[2] == "Address: " + p.formattedAddress.value)
      && (p.formattedAddress.None? ==> ls[2] == "Address: " + "Address not available")
      && (p.rating.Some? ==> ls[3] == "Rating: " + p.rating.value + " stars")
      && (p.rating.None? ==> ls[3] == "Rating: " + "No rating" + " stars")
      && ls[5] == "Place ID: " + p.placeId
  {
    PlaceBlockLines(p);
  }

  /** Exactly one line of a block names the place. */
  lemma OneNameLinePerBlock(p: Place)
    ensures CountWithPrefix(PlaceLines(p) + [""], "Name: ") == 1
  {
    var ls := PlaceLines(p) + [""];
    CountWithPrefixCons(ls[6], [], "Name: ");
    CountWithPrefixCons(ls[5], ls[6..], "Name: ");
    CountWithPrefixCons(ls[4], ls[5..], "Name: ");
    CountWithPrefixCons(ls[3], ls[4..], "Name: ");
    CountWithPrefixCons(ls[2], ls[3..], "Name: ");
    CountWithPrefixCons(ls[1], ls[2..], "Name: ");
    CountWithPrefixCons(ls[0], ls[1..], "Name: ");
    assert ls[6..] == [ls[6]] + [] && ls[5..] == [ls[5]] + ls[6..];
    assert ls[4..] == [ls[4]] + ls[5..] && ls[3..] == [ls[3]] + ls[4..];
    assert ls[2..] == [ls[2]] + ls[3..] && ls[1..] == [ls[1]] + ls[2..];
    assert ls == [ls[0]] + ls[1..];
    assert !("Name: " <= ls[2]) by { assert ls[2][0] == 'A'; }
    assert !("Name: " <= ls[3]) by { assert ls[3][0] == 'R'; }
    assert !("Name: " <= ls[4]) by { assert ls[4][0] == 'T'; }
    assert !("Name: " <= ls[5]) by { assert ls[5][0] == 'P'; }
  }

  /** Joined blocks contain one "Name: " line per block: the separator line
      `---` names nothing. */
  lemma {:induction false} NameLineCount(ps: seq<Place>)
    requires forall i :: 0 <= i < |ps| ==> PlaceSingleLine(ps[i])
    ensures CountWithPrefix(Lines(Join(PlaceSeparator, PlaceBlocks(ps))), "Name: ") == |ps|
    decreases |ps|
  {
    if |ps| == 0 {
      assert Lines("") == [""];
    } else if |ps| == 1 {
      PlaceBlockLines(ps[0]);
      OneNameLinePerBlock(ps[0]);
    } else {
      var rest := Lines(Join(PlaceSeparator, PlaceBlocks(ps[1..])));
      JoinedBlocksStep(ps);
      PlaceBlockLines(ps[0]);
      OneNameLinePerBlock(ps[0]);
      NameLineCount(ps[1..]);
      assert (PlaceLines(ps[0]) + [""]) + ["---"] + rest == (PlaceLines(ps[0]) + [""]) + (["---"] + rest);
      CountWithPrefixAppend(PlaceLines(ps[0]) + [""], ["---"] + rest, "Name: ");
      CountWithPrefixCons("---", rest, "Name: ");
    }
  }

  /** The report names min(n, 5) places: one "Name: " line for each of the
      first five results and none for the rest. */
  lemma RenderPlacesNamesAtMostFive(ps: seq<Place>)
    requires forall i :: 0 <= i < |ps| ==> PlaceSingleLine(ps[i])
    ensures CountWithPrefix(Lines(RenderPlaces(ps)), "Name: ") == Min(|ps|, MaxPlaces)
  {
    NameLineCount(Take(ps, MaxPlaces));
  }

  /** The lines the joined blocks read back as: each block's lines and its
      final empty piece, with a `---` line between consecutive blocks. */
  function JoinedLines(ps: seq<Place>): (ls: seq<string>)
    requires |ps| > 0
    ensures |ls| == 8 * |ps| - 1
  {
    if |ps| == 1 then PlaceLines(ps[0]) + [""]
    else PlaceLines(ps[0]) + [""] + ["---"] + JoinedLines(ps[1..])
  }

  /** A separator between two texts reads back as one `---` line. */
  lemma LinesAtSeparator(a: string, c: string)
    ensures Lines(a + PlaceSeparator + c) == Lines(a) + ["---"] + Lines(c)
  {
    assert a + PlaceSeparator + c == a + "\n" + ("---" + "\n" + c);
    LinesAroundNewline(a, "---" + "\n" + c);
    SingleLineIsOneLine("---");
    LinesOfLineThen("---", c);
    assert Lines(a) + (["---"] + Lines(c)) == Lines(a) + ["---"] + Lines(c);
  }

  /** Splitting the joined blocks at the first separator. */
  lemma JoinedBlocksStep(ps: seq<Place>)
    requires |ps| > 1
    ensures Lines(Join(PlaceSeparator, PlaceBlocks(ps)))
         == Lines(PlaceBlock(ps[0])) + ["---"] + Lines(Join(PlaceSeparator, PlaceBlocks(ps[1..])))
  {
    assert PlaceBlocks(ps) == [PlaceBlock(ps[0])] + PlaceBlocks(ps[1..]);
    JoinCons(PlaceSeparator, PlaceBlock(ps[0]), PlaceBlocks(ps[1..]));
    LinesAtSeparator(PlaceBlock(ps[0]), Join(PlaceSeparator, PlaceBlocks(ps[1..])));
  }

  lemma {:induction false} JoinedBlocksLines(ps: seq<Place>)
    requires |ps| > 0
    requires forall i :: 0 <= i < |ps| ==> PlaceSingleLine(ps[i])
    ensures Lines(Join(PlaceSeparator, PlaceBlocks(ps))) == JoinedLines(ps)
    decreases |ps|
  {
    PlaceBlockLines(ps[0]);
    if |ps| > 1 {
      JoinedBlocksStep(ps);
      JoinedBlocksLines(ps[1..]);
    }
  }

  /** Block `i` occupies lines `8 * i` to `8 * i + 6`, and a `---` line
      follows every block but the last. */
  lemma {:induction false} JoinedLinesAt(ps: seq<Place>, i: nat)
    requires i < |ps|
    ensures JoinedLines(ps)[8 * i .. 8 * i + 7] == PlaceLines(ps[i]) + [""]
    ensures i < |ps| - 1 ==> JoinedLines(ps)[8 * i + 7] == "---"
    decreases i
  {
    var ls := JoinedLines(ps);
    if i > 0 {
      JoinedLinesAt(ps[1..], i - 1);
      var tail := JoinedLines(ps[1..]);
      assert ls == PlaceLines(ps[0]) + [""] + ["---"] + tail;
      assert ls[8..] == tail;
      assert ls[8 * i .. 8 * i + 7] == tail[8 * (i - 1) .. 8 * (i - 1) + 7];
      assert ps[1..][i - 1] == ps[i];
    } else if |ps| > 1 {
      assert ls == PlaceLines(ps[0]) + [""] + ["---"] + JoinedLines(ps[1..]);
    }
  }

  /** The report on n places, read line by line: exactly min(n, 5) blocks of
      seven lines, block `i` being the lines of place `i` in input order
      (its "Name: " line second), each but the last followed by `---`. */
  lemma RenderPlacesLayout(ps: seq<Place>)
    requires |ps| > 0
    requires forall i :: 0 <= i < |ps| ==> PlaceSingleLine(ps[i])
    ensures var m := Min(|ps|, MaxPlaces);
      var ls := Lines(RenderPlaces(ps));
      && |ls| == 8 * m - 1
      && (forall i :: 0 <= i < m ==> ls[8 * i .. 8 * i + 7] == PlaceLines(ps[i]) + [""])
      && (forall i :: 0 <= i < m ==> ls[8 * i + 1] == "Name: " + ps[i].name)
      && (forall i :: 0 <= i < m - 1 ==> ls[8 * i + 7] == "---")
  {
    var shown := Take(ps, MaxPlaces);
    JoinedBlocksLines(shown);
    var ls := JoinedLines(shown);
    forall i | 0 <= i < |shown|
      ensures ls[8 * i .. 8 * i + 7] == PlaceLines(ps[i]) + [""]
      ensures ls[8 * i + 1] == "Name: " + ps[i].name
      ensures i < |shown| - 1 ==> ls[8 * i + 7] == "---"
    {
      JoinedLinesAt(shown, i);
      assert ls[8 * i + 1] == ls[8 * i .. 8 * i + 7][1];
    }
  }

  /** What `search_places` makes of the gateway's answer. */
  function RenderSearch(data: Option<SearchBody>): (text: string)
    ensures text == SearchFailure <==> data.None? || |data.value.results| == 0
  {
    if data.None? || |data.value.results| == 0 then SearchFailure
    else
      assert SearchFailure[0] == 'N';
      RenderPlaces(data.value.results)
  }

  /** `search_places(query, location, radius)`. */
  function SearchPlaces(query: string, location: Option<string>, radius: Option<int>, key: string,
                        net: Request -> HttpOutcome<SearchBody>): (r: Reply)
    ensures |r.sent| == 1
    ensures r.sent[0] == Outgoing(SearchEndpoint, SearchParams(query, location, radius), key)
    ensures r.text == SearchFailure <==> !Answered(net(r.sent[0])) || |net(r.sent[0]).body.results| == 0
  {
    var x := Call(net, SearchEndpoint, SearchParams(query, location, radius), key);
    Reply(RenderSearch(x.data), [x.sent])
  }
}

=== FILE: text.dfy ===
/**
 * The string operations the tools are built from, with Python's meaning:
 * `sep.join(parts)`, `s.split(sep)`, `s.replace(pat, rep)`, slicing `xs[:n]`,
 * and the text layout of multi-line reports.
 *
 * A note on message constants across the modules: the verifier does not
 * look inside a string literal longer than about fifty characters, so a
 * message that a proof must tell apart from a report by its first
 * character is written as two literals joined by `+`.
 */
module Text {
  import opened Wrappers

  /** Python's `xs[:n]` for `n >= 0`: the first `min(n, |xs|)` elements. */
  function Take<T>(xs: seq<T>, n: nat): (r: seq<T>)
    ensures |r| == Min(n, |xs|)
    ensures forall i :: 0 <= i < |r| ==> r[i] == xs[i]
  {
    if n <= |xs| then xs[..n] else xs
  }

  /** Python's `sep.join(parts)`. The text opens with the first part;
      `SplitJoinRoundTrip` shows that splitting at a one-character separator
      no part contains gives the parts back. */
  function Join(sep: string, parts: seq<string>): (r: string)
    ensures |parts| > 0 ==> parts[0] <= r
  {
    if |parts| == 0 then ""
    else if |parts| == 1 then parts[0]
    else parts[0] + sep + Join(sep, parts[1..])
  }

  /** Python's `s.split(sep)` for a non-empty separator: the pieces between
      the non-overlapping occurrences of `sep`, found from left to right. */
  function Split(s: string, sep: string): (parts: seq<string>)
    requires |sep| > 0
    ensures |parts| > 0
    decreases |s|
  {
    if |s| == 0 then [""]
    else if sep <= s then [""] + Split(s[|sep|..], sep)
    else
      var rest := Split(s[1..], sep);
      [[s[0]] + rest[0]] + rest[1..]
  }

  /** Python's `s.replace(pat, rep)`: a left-to-right scan that replaces every
      non-overlapping occurrence of `pat`; an empty `pat` puts `rep` before
      every character and at the end. */
  function ReplaceAll(s: string, pat: string, rep: string): string
    decreases |s|
  {
    if |pat| == 0 then
      if |s| == 0 then rep else rep + [s[0]] + ReplaceAll(s[1..], pat, rep)
    else if |s| == 0 then ""
    else if pat <= s then rep + ReplaceAll(s[|pat|..], pat, rep)
    else [s[0]] + ReplaceAll(s[1..], pat, rep)
  }

  /** `needle` occurs somewhere in `hay`. */
  predicate IsInfix(needle: string, hay: string) {
    exists i :: 0 <= i <= |hay| && needle <= hay[i..]
  }

  /** Lines each followed by a newline: the shape of a triple-quoted
      template and of a loop that appends `f"...\n"` per item. */
  function Unlines(lines: seq<string>): string
  {
    if |lines| == 0 then "" else lines[0] + "\n" + Unlines(lines[1..])
  }

  /** The lines of a text, as `text.split("\n")` gives them. */
  function Lines(text: string): (ls: seq<string>)
    ensures |ls| > 0
  {
    Split(text, "\n")
  }

  predicate SingleLine(s: string) {
    '\n' !in s
  }

  predicate AllSingleLine(ls: seq<string>) {
    forall i :: 0 <= i < |ls| ==> SingleLine(ls[i])
  }

  /** How many of `ls` start with `p`. */
  function CountWithPrefix(ls: seq<string>, p: string): nat
  {
    if |ls| == 0 then 0
    else (if p <= ls[0] then 1 else 0) + CountWithPrefix(ls[1..], p)
  }

  /** The concatenation of a sequence of line blocks. */
  function Flatten(blocks: seq<seq<string>>): seq<string>
  {
    if |blocks| == 0 then [] else blocks[0] + Flatten(blocks[1..])
  }

  // ---------------------------------------------------------------------
  // Replace-all against split-and-join
  // ---------------------------------------------------------------------

  lemma JoinPrependChar(c: char, sep: string, parts: seq<string>)
    requires |parts| > 0
    ensures Join(sep, [[c] + parts[0]] + parts[1..]) == [c] + Join(sep, parts)
  {
    var q := [[c] + parts[0]] + parts[1..];
    assert q[1..] == parts[1..];
  }

  /** Replacing every occurrence is the same as splitting at the occurrences
      and joining the pieces with the replacement (Python's
      `rep.join(s.split(pat))`). */
  lemma {:induction false} ReplaceAllIsJoinOfSplit(s: string, pat: string, rep: string)
    requires |pat| > 0
    ensures ReplaceAll(s, pat, rep) == Join(rep, Split(s, pat))
    decreases |s|
  {
    if |s| == 0 {
    } else if pat <= s {
      var rest := Split(s[|pat|..], pat);
      ReplaceAllIsJoinOfSplit(s[|pat|..], pat, rep);
      assert Split(s, pat) == [""] + rest;
      JoinCons(rep, "", rest);
    } else {
      var rest := Split(s[1..], pat);
      ReplaceAllIsJoinOfSplit(s[1..], pat, rep);
      assert Split(s, pat) == [[s[0]] + rest[0]] + rest[1..];
      JoinPrependChar(s[0], rep, rest);
    }
  }

  lemma JoinCons(sep: string, x: string, rest: seq<string>)
    requires |rest| > 0
    ensures Join(sep, [x] + rest) == x + sep + Join(sep, rest)
  {
    assert ([x] + rest)[1..] == rest;
  }

  /** A string in which `pat` does not occur is returned unchanged. */
  lemma {:induction false} ReplaceAllWithoutMatch(s: string, pat: string, rep: string)
    requires |pat| > 0 && !IsInfix(pat, s)
    ensures ReplaceAll(s, pat, rep) == s
    decreases |s|
  {
    if |s| > 0 {
      assert s[0..] == s;
      assert !(pat <= s);
      assert !IsInfix(pat, s[1..]);
      ReplaceAllWithoutMatch(s[1..], pat, rep);
    }
  }

  /** A replacement no longer than the pattern never lengthens the string. */
  lemma {:induction false} ReplaceAllNotLonger(s: string, pat: string, rep: string)
    requires |pat| > 0 && |rep| <= |pat|
    ensures |ReplaceAll(s, pat, rep)| <= |s|
    decreases |s|
  {
    if |s| == 0 {
    } else if pat <= s {
      ReplaceAllNotLonger(s[|pat|..], pat, rep);
    } else {
      ReplaceAllNotLonger(s[1..], pat, rep);
    }
  }

  /** Every character of a replacement's result comes from the text or
      from the replacement. */
  lemma {:induction false} ReplaceAllChars(s: string, pat: string, rep: string)
    ensures forall c :: c in ReplaceAll(s, pat, rep) ==> c in s || c in rep
    decreases |s|
  {
    if |s| > 0 {
      if |pat| == 0 || !(pat <= s) {
        ReplaceAllChars(s[1..], pat, rep);
        assert forall c :: c in s[1..] ==> c in s;
      } else {
        ReplaceAllChars(s[|pat|..], pat, rep);
        assert forall c :: c in s[|pat|..] ==> c in s;
      }
    }
  }

  /** Removing a pattern brings in no character. */
  lemma ReplaceAllDropsOnly(s: string, pat: string)
    ensures forall c :: c in ReplaceAll(s, pat, "") ==> c in s
  {
    ReplaceAllChars(s, pat, "");
  }

  /** Replacing a pattern by a space brings in no character but the space. */
  lemma ReplaceAllSpacesOnly(s: string, pat: string)
    ensures forall c :: c in ReplaceAll(s, pat, " ") ==> c in s || c == ' '
  {
    ReplaceAllChars(s, pat, " ");
  }

  /** When the pattern does not open the text (for instance because their
      first characters differ), the scan copies the first character through. */
  lemma ReplaceAllSkipsChar(s: string, pat: string, rep: string)
    requires |pat| > 0 && |s| > 0 && !(pat <= s)
    ensures ReplaceAll(s, pat, rep) == [s[0]] + ReplaceAll(s[1..], pat, rep)
  {
  }

  lemma HeadThenTail<T>(a: seq<T>, t: seq<T>)
    requires |a| > 0
    ensures [a[0]] + (a[1..] + t) == a + t
  {
  }

  /** A stretch in which the pattern's first character never appears is
      copied through unchanged. */
  lemma {:induction false} ReplaceAllAfterPlain(a: string, b: string, pat: string, rep: string)
    requires |pat| > 0 && pat[0] !in a
    ensures ReplaceAll(a + b, pat, rep) == a + ReplaceAll(b, pat, rep)
    decreases |a|
  {
    if |a| == 0 {
      assert a + b == b;
    } else {
      var s := a + b;
      assert s[0] == a[0] && s[1..] == a[1..] + b;
      ReplaceAllSkipsChar(s, pat, rep);
      ReplaceAllAfterPlain(a[1..], b, pat, rep);
      HeadThenTail(a, ReplaceAll(b, pat, rep));
    }
  }

  /** An occurrence at the very start is replaced and the scan resumes
      after it. */
  lemma ReplaceAllAtStart(pat: string, b: string, rep: string)
    requires |pat| > 0
    ensures ReplaceAll(pat + b, pat, rep) == rep + ReplaceAll(b, pat, rep)
  {
    assert pat <= pat + b;
    assert (pat + b)[|pat|..] == b;
  }

  // ---------------------------------------------------------------------
  // Splitting at a one-character separator
  // ---------------------------------------------------------------------

  /** A text without the separator is one piece. */
  lemma {:induction false} SplitWithoutSeparator(s: string, c: char)
    requires c !in s
    ensures Split(s, [c]) == [s]
    decreases |s|
  {
    if |s| > 0 {
      SplitWithoutSeparator(s[1..], c);
      assert [s[0]] + s[1..] == s;
    }
  }

  /** Cutting at an inserted one-character separator splits the two sides
      independently. */
  lemma {:induction false} SplitAroundSeparator(a: string, c: char, b: string)
    ensures Split(a + [c] + b, [c]) == Split(a, [c]) + Split(b, [c])
    decreases |a|
  {
    var s := a + [c] + b;
    if |a| == 0 {
      assert s == [c] + b;
      assert [c] <= s;
      assert s[1..] == b;
    } else {
      assert s[1..] == a[1..] + [c] + b;
      if a[0] == c {
        assert [c] <= s && [c] <= a;
        SplitAroundSeparator(a[1..], c, b);
      } else {
        assert !([c] <= s) && !([c] <= a);
        SplitAroundSeparator(a[1..], c, b);
        var ra := Split(a[1..], [c]);
        var rs := Split(s[1..], [c]);
        assert rs == ra + Split(b, [c]);
        assert rs[0] == ra[0];
        assert rs[1..] == ra[1..] + Split(b, [c]);
      }
    }
  }

  /** Splitting a one-character join gives back the parts, provided no part
      contains the separator. */
  lemma {:induction false} SplitJoinRoundTrip(parts: seq<string>, c: char)
    requires |parts| > 0
    requires forall i :: 0 <= i < |parts| ==> c !in parts[i]
    ensures Split(Join([c], parts), [c]) == parts
    decreases |parts|
  {
    if |parts| == 1 {
      SplitWithoutSeparator(parts[0], c);
    } else {
      SplitJoinRoundTrip(parts[1..], c);
      SplitAroundSeparator(parts[0], c, Join([c], parts[1..]));
      SplitWithoutSeparator(parts[0], c);
      assert [parts[0]] + parts[1..] == parts;
    }
  }

  /** Reading back a text written as terminated lines gives those lines and
      an empty last piece after the final newline. */
  lemma {:induction false} LinesOfUnlines(ls: seq<string>)
    requires AllSingleLine(ls)
    ensures Lines(Unlines(ls)) == ls + [""]
    decreases |ls|
  {
    if |ls| > 0 {
      LinesOfUnlines(ls[1..]);
      SplitAroundSeparator(ls[0], '\n', Unlines(ls[1..]));
      SplitWithoutSeparator(ls[0], '\n');
      assert [ls[0]] + ls[1..] == ls;
    }
  }

  /** The lines of a newline join are the parts. */
  lemma LinesOfJoin(ls: seq<string>)
    requires |ls| > 0 && AllSingleLine(ls)
    ensures Lines(Join("\n", ls)) == ls
  {
    SplitJoinRoundTrip(ls, '\n');
  }

  /** Lines on both sides of a newline. */
  lemma LinesAroundNewline(a: string, b: string)
    ensures Lines(a + "\n" + b) == Lines(a) + Lines(b)
  {
    SplitAroundSeparator(a, '\n', b);
  }

  lemma SingleLineIsOneLine(s: string)
    requires SingleLine(s)
    ensures Lines(s) == [s]
  {
    SplitWithoutSeparator(s, '\n');
  }

  lemma LinesOfEmpty()
    ensures Lines("") == [""]
  {
  }

  /** A single line, a newline, then the rest. */
  lemma LinesOfLineThen(line: string, rest: string)
    requires SingleLine(line)
    ensures Lines(line + "\n" + rest) == [line] + Lines(rest)
  {
    LinesAroundNewline(line, rest);
    SingleLineIsOneLine(line);
  }

  /** A line break, a single line, another line break, then the rest. */
  lemma LinesOfBlankThenLine(line: string, rest: string)
    requires SingleLine(line)
    ensures Lines("\n" + line + "\n" + rest) == ["", line] + Lines(rest)
  {
    assert "\n" + line + "\n" + rest == "" + "\n" + (line + "\n" + rest);
    LinesOfLineThen("", line + "\n" + rest);
    LinesOfLineThen(line, rest);
  }

  /** A single line, a line break, then text that reads back as an empty
      line followed by `tail`. */
  lemma LineThenLines(line: string, rest: string, tail: seq<string>)
    requires SingleLine(line) && Lines(rest) == [""] + tail
    ensures Lines(line + "\n" + rest) == [line, ""] + tail
  {
    LinesOfLineThen(line, rest);
    assert [line] + ([""] + tail) == [line, ""] + tail;
  }

  /** Cutting at a line break before two adjacent pieces. */
  lemma LinesAroundNewlineThen(a: string, b: string, c: string)
    ensures Lines(a + "\n" + b + c) == Lines(a) + Lines(b + c)
  {
    assert a + "\n" + b + c == a + "\n" + (b + c);
    LinesAroundNewline(a, b + c);
  }

  /** Terminated lines followed by two adjacent pieces. */
  lemma LinesAfterUnlinesThen(ls: seq<string>, a: string, b: string)
    requires AllSingleLine(ls)
    ensures Lines(Unlines(ls) + a + b) == ls + Lines(a + b)
  {
    assert Unlines(ls) + a + b == Unlines(ls) + (a + b);
    LinesAfterUnlines(ls, a + b);
  }

  /** A terminated-lines text followed by more text. */
  lemma {:induction false} LinesAfterUnlines(ls: seq<string>, t: string)
    requires AllSingleLine(ls)
    ensures Lines(Unlines(ls) + t) == ls + Lines(t)
    decreases |ls|
  {
    if |ls| == 0 {
      assert Unlines(ls) + t == t;
    } else {
      assert Unlines(ls) + t == ls[0] + "\n" + (Unlines(ls[1..]) + t);
      LinesOfLineThen(ls[0], Unlines(ls[1..]) + t);
      LinesAfterUnlines(ls[1..], t);
      assert [ls[0]] + ls[1..] == ls;
    }
  }

  /** Text, an empty line, then `line` and the rest. */
  lemma LinesAfterBlankThenLine(before: string, line: string, rest: string)
    requires SingleLine(line)
    ensures Lines(before + ("\n" + "\n" + line + ("\n" + rest))) == Lines(before) + (["", line] + Lines(rest))
  {
    assert before + ("\n" + "\n" + line + ("\n" + rest)) == before + "\n" + ("\n" + line + "\n" + rest);
    LinesAroundNewline(before, "\n" + line + "\n" + rest);
    LinesOfBlankThenLine(line, rest);
  }

  /** Concatenation regrouped: the middle two pieces joined first. */
  lemma Regroup<T>(a: seq<T>, b: seq<T>, c: seq<T>, d: seq<T>)
    ensures (a + b) + (c + d) == a + (b + c) + d
  {
  }

  lemma Reassociate<T>(a: seq<T>, b: seq<T>, c: seq<T>, d: seq<T>)
    ensures a + (b + c + d) == a + b + c + d
  {
  }

  lemma UnlinesAppend(a: seq<string>, b: seq<string>)
    ensures Unlines(a + b) == Unlines(a) + Unlines(b)
    decreases |a|
  {
    if |a| == 0 {
      assert a + b == b;
    } else {
      assert (a + b)[1..] == a[1..] + b;
      UnlinesAppend(a[1..], b);
    }
  }

  /** A join contains no character that neither the separator nor any part
      contains. */
  lemma {:induction false} JoinKeepsCharOut(c: char, sep: string, parts: seq<string>)
    requires c !in sep
    requires forall i :: 0 <= i < |parts| ==> c !in parts[i]
    ensures c !in Join(sep, parts)
    decreases |parts|
  {
    if |parts| > 1 {
      JoinKeepsCharOut(c, sep, parts[1..]);
    }
  }

  // ---------------------------------------------------------------------
  // Counting and locating lines
  // ---------------------------------------------------------------------

  /** A first line is counted when it carries the prefix. */
  lemma CountWithPrefixCons(x: string, rest: seq<string>, p: string)
    ensures CountWithPrefix([x] + rest, p) == (if p <= x then 1 else 0) + CountWithPrefix(rest, p)
  {
    assert ([x] + rest)[1..] == rest;
  }

  lemma {:induction false} CountWithPrefixAppend(a: seq<string>, b: seq<string>, p: string)
    ensures CountWithPrefix(a + b, p) == CountWithPrefix(a, p) + CountWithPrefix(b, p)
    decreases |a|
  {
    if |a| == 0 {
      assert a + b == b;
    } else {
      assert (a + b)[1..] == a[1..] + b;
      CountWithPrefixAppend(a[1..], b, p);
    }
  }

  /** In a concatenation of blocks that all have `width` lines, line `x` of
      block `i` sits at index `i * width + x`. */
  lemma {:induction false} FlattenUniform(blocks: seq<seq<string>>, width: nat, i: nat, x: nat)
    requires forall k :: 0 <= k < |blocks| ==> |blocks[k]| == width
    requires i < |blocks| && x < width
    ensures |Flatten(blocks)| == |blocks| * width
    ensures i * width + x < |Flatten(blocks)|
    ensures Flatten(blocks)[i * width + x] == blocks[i][x]
    decreases |blocks|
  {
    FlattenLength(blocks, width);
    if i > 0 {
      FlattenUniform(blocks[1..], width, i - 1, x);
      assert i * width + x == width + ((i - 1) * width + x);
    }
  }

  /** Line `x` of block `i` of `n` uniform blocks, after a two-line
      heading, sits at index `k = 2 + i * width + x`. */
  lemma LineOfBlock(ls: seq<string>, head: seq<string>, blocks: seq<seq<string>>,
                    n: nat, width: nat, i: nat, x: nat, k: int)
    requires ls == head + Flatten(blocks) && |head| == 2 && |blocks| == n
    requires forall b :: 0 <= b < |blocks| ==> |blocks[b]| == width
    requires i < n && x < width && k == 2 + i * width + x
    ensures |ls| == 2 + n * width
    ensures 0 <= k < |ls|
    ensures ls[k] == blocks[i][x]
  {
    FlattenUniform(blocks, width, i, x);
  }

  lemma {:induction false} FlattenLength(blocks: seq<seq<string>>, width: nat)
    requires forall k :: 0 <= k < |blocks| ==> |blocks[k]| == width
    ensures |Flatten(blocks)| == |blocks| * width
    decreases |blocks|
  {
    if |blocks| > 0 {
      FlattenLength(blocks[1..], width);
      assert |blocks| * width == width + (|blocks| - 1) * width;
    }
  }

  /** Every line starts with `p`. */
  lemma {:induction false} CountWithPrefixAll(ls: seq<string>, p: string)
    requires forall i :: 0 <= i < |ls| ==> p <= ls[i]
    ensures CountWithPrefix(ls, p) == |ls|
    decreases |ls|
  {
    if |ls| > 0 {
      CountWithPrefixAll(ls[1..], p);
    }
  }

  /** No line starts with `p`. */
  lemma {:induction false} CountWithPrefixNone(ls: seq<string>, p: string)
    requires forall i :: 0 <= i < |ls| ==> !(p <= ls[i])
    ensures CountWithPrefix(ls, p) == 0
    decreases |ls|
  {
    if |ls| > 0 {
      CountWithPrefixNone(ls[1..], p);
    }
  }

  /** Blocks with `k` lines starting with `p` each contribute `k` apiece. */
  lemma {:induction false} CountWithPrefixFlatten(blocks: seq<seq<string>>, p: string, k: nat)
    requires forall i :: 0 <= i < |blocks| ==> CountWithPrefix(blocks[i], p) == k
    ensures CountWithPrefix(Flatten(blocks), p) == |blocks| * k
    decreases |blocks|
  {
    if |blocks| > 0 {
      CountWithPrefixFlatten(blocks[1..], p, k);
      CountWithPrefixAppend(blocks[0], Flatten(blocks[1..]), p);
      assert |blocks| * k == k + (|blocks| - 1) * k;
    }
  }

  lemma AllSingleLineAppend(a: seq<string>, b: seq<string>)
    requires AllSingleLine(a) && AllSingleLine(b)
    ensures AllSingleLine(a + b)
  {
    forall i | 0 <= i < |a + b|
      ensures SingleLine((a + b)[i])
    {
      if i >= |a| {
        assert (a + b)[i] == b[i - |a|];
      }
    }
  }

  /** Blocks of single lines flatten to single lines. */
  lemma {:induction false} FlattenSingleLine(blocks: seq<seq<string>>)
    requires forall i :: 0 <= i < |blocks| ==> AllSingleLine(blocks[i])
    ensures AllSingleLine(Flatten(blocks))
    decreases |blocks|
  {
    if |blocks| > 0 {
      FlattenSingleLine(blocks[1..]);
      AllSingleLineAppend(blocks[0], Flatten(blocks[1..]));
    }
  }

  // ---------------------------------------------------------------------
  // Occurrence
  // ---------------------------------------------------------------------

  lemma InfixOfConcat(a: string, x: string, b: string)
    ensures IsInfix(x, a + x + b)
  {
    assert (a + x + b)[|a|..] == x + b;
  }

  lemma InfixTransitive(x: string, y: string, z: string)
    requires IsInfix(x, y) && IsInfix(y, z)
    ensures IsInfix(x, z)
  {
    var i :| 0 <= i <= |y| && x <= y[i..];
    var j :| 0 <= j <= |z| && y <= z[j..];
    forall k | 0 <= k < |x|
      ensures z[j + i + k] == x[k]
    {
      assert y[i..][k] == x[k];
      assert z[j..][i + k] == y[i + k];
    }
    assert x <= z[j + i..];
  }

  /** A field written into one line of a terminated-lines text occurs in
      that text verbatim. */
  lemma FieldOccursInUnlines(ls: seq<string>, k: nat, before: string, field: string, after: string)
    requires k < |ls| && ls[k] == before + field + after
    ensures IsInfix(field, Unlines(ls))
  {
    LineOccursInUnlines(ls, k);
    InfixOfConcat(before, field, after);
    InfixTransitive(field, ls[k], Unlines(ls));
  }

  /** A text that opens with an empty line starts with a newline. */
  lemma UnlinesOpensWithNewline(ls: seq<string>)
    requires |ls| > 0 && ls[0] == ""
    ensures |Unlines(ls)| > 0 && Unlines(ls)[0] == '\n'
  {
    assert Unlines(ls) == "" + "\n" + Unlines(ls[1..]);
  }

  /** Every line of a terminated-lines text occurs in it verbatim. */
  lemma {:induction false} LineOccursInUnlines(ls: seq<string>, k: nat)
    requires k < |ls|
    ensures IsInfix(ls[k], Unlines(ls))
    decreases k
  {
    if k == 0 {
      InfixOfConcat("", ls[0], "\n" + Unlines(ls[1..]));
      assert "" + ls[0] + ("\n" + Unlines(ls[1..])) == Unlines(ls);
    } else {
      LineOccursInUnlines(ls[1..], k - 1);
      InfixOfConcat(ls[0] + "\n", Unlines(ls[1..]), "");
      assert ls[0] + "\n" + Unlines(ls[1..]) + "" == Unlines(ls);
      InfixTransitive(ls[k], Unlines(ls[1..]), Unlines(ls));
    }
  }
}

=== FILE: travel.dfy ===
/**
 * The travel mode accepted by directions and the distance matrix: one of four
 * lower-case names, checked before anything is sent upstream.
 */
module Travel {
  import opened Wrappers

  datatype Mode = Driving | Walking | Bicycling | Transit

  const ModeNames: seq<string> := ["driving", "walking", "bicycling", "transit"]

  const InvalidModeMessage: string := "Invalid travel mode. Use: driving, walking, bicycling, or transit"

  /** The name sent upstream as the `mode` parameter. */
  function Name(m: Mode): string {
    match m
    case Driving => "driving"
    case Walking => "walking"
    case Bicycling => "bicycling"
    case Transit => "transit"
  }

  /** `mode.title()` on the four valid names. */
  function Title(m: Mode): string {
    match m
    case Driving => "Driving"
    case Walking => "Walking"
    case Bicycling => "Bicycling"
    case Transit => "Transit"
  }

  /** The membership test `mode not in [...]`: exact, case-sensitive. */
  function ParseMode(s: string): (r: Option<Mode>)
    ensures r.Some? <==> s in ModeNames
    ensures r.Some? ==> Name(r.value) == s
  {
    if s == "driving" then Some(Driving)
    else if s == "walking" then Some(Walking)
    else if s == "bicycling" then Some(Bicycling)
    else if s == "transit" then Some(Transit)
    else None
  }

  /** Every mode's name is accepted and read back as that mode. */
  lemma ParseName(m: Mode)
    ensures ParseMode(Name(m)) == Some(m)
  {
  }

  function UpperAscii(c: char): char {
    if 'a' <= c <= 'z' then (c as int - 32) as char else c
  }

  /** The title form is the name with its first letter capitalised, which is
      what `str.title()` does to one lower-case ASCII word. */
  lemma TitleCapitalisesName(m: Mode)
    ensures |Title(m)| == |Name(m)| > 0
    ensures Title(m)[0] == UpperAscii(Name(m)[0])
    ensures Title(m)[1..] == Name(m)[1..]
  {
  }
}

=== FILE: wrappers.dfy ===
/** Optional values: a JSON field that may be absent from an upstream reply. */
module Wrappers {

  datatype Option<+T> = None | Some(value: T) {

    /** The value when present, otherwise `default` (Python's `dict.get(k, default)`). */
    function GetOr(default: T): T {
      match this
      case Some(v) => v
      case None => default
    }
  }

  function Min(a: int, b: int): int {
    if a <= b then a else b
  }
}
